=== FILE: README.md ===
# Conversation-memory proxy: a Dafny model

This project models the thread-memory pipeline of a reverse proxy that sits
in front of a chat-completion API. A caller posts a turn to a thread. The
proxy stores the turn and rebuilds the thread's history. It forwards that
history upstream with the caller's headers and the configured credential,
and relays the reply to the caller, either streamed or buffered. Finally it
stores the assistant's text in the same thread.

Modules, one per component:

- `SqliteStore` (sqlite_store.dfy): the `messages` table as a sequence of
  rows with an autoincrement id, a thread key and a nullable content. Save
  inserts one row. Read selects the thread's rows in id order and scans each
  content. This is the string store the handler runs on.
- `MessageCodec` (message_codec.dfy) and `RedisStore` (redis_store.dfy): the
  key-value store. It keeps one list per thread of encoded `{role, content}`
  records. The codec writes the object form Go's encoder produces, with the
  escaping of Go 1.22 and later, and decodes it back.
- `Assembly` (assembly.dfy): thread-id defaulting, the optional system
  message, and roles by strict alternation starting at `user`.
- `Forwarder` (forwarder.dfy): the header copy and the conditional bearer
  credential.
- `StreamRelay` (stream_relay.dfy): the line scanner and the fold over
  Server-Sent Events lines (section 9.2 of the WHATWG HTML Living Standard).
  It echoes each line, stops at `data: [DONE]`, and accumulates the delta
  text.
- `BufferedRelay` (buffered_relay.dfy): extraction of the reply text from a
  whole body, in the order `message.content`, `message.text`, `text`.
- `Responses` (responses.dfy): the endpoint handler `Handle`, tying it all
  together, with end-to-end lemmas.

Parameters stand for what cannot be modelled. These are the generated thread
id, the upstream call, and the two JSON decoders for event payloads and
completion bodies. They are fields of `Responses.Env`. Database failures are
part of the `Db` state. `online` decides whether statements run at all.
`freeRows` says how many more rows fit before the file is full, so a request
can fail after saving some of its inputs. A NULL content makes the scan fail.

The code departs from the intended API in these ways, and the model follows
the code:

- The code's handler saves bare strings (`req.Input`), not `{role, content}`
  records. Roles are rebuilt by position, and the instructions are never
  stored.
- The code never rejects an empty message list. A POST with no input on an
  empty thread is forwarded with no messages, or with only the system message.
- The relay always answers with status 200, whatever the upstream status was.
- A buffered reply is always labelled `application/json`, whatever content type the upstream sent.
- Only the first caller Authorization value is consulted. When it is empty
  or absent, the configured credential replaces every caller value, even a
  non-empty second one.

## Model

| member | source | states |
|---|---|---|
| SqliteStore.SaveMessage | sqlite_store.go:25-28 | A save succeeds exactly when the database is reachable and has room. On success it appends exactly one row, holding this thread and this content, and keeps every earlier row. On failure nothing changes. Id order is preserved. |
| SqliteStore.Select | sqlite_store.go:31 | The selection never grows beyond the table, and every selected row belongs to the requested thread. |
| SqliteStore.SelectIsFilter | sqlite_store.go:31 | Each selected row is a row of the table, and each row of the thread is selected: the read returns only, and all of, the contents saved under the thread. |
| SqliteStore.ScanAll | sqlite_store.go:36-44 | The scan succeeds exactly when no selected content is NULL. It then returns one string per row, in order. A NULL aborts the read with an error and no partial list. |
| SqliteStore.GetMessages | sqlite_store.go:30-45 | A read succeeds exactly when the database is reachable and the thread's column has no NULL. It then returns the column's contents in table order, which is id order on every table built by saves (ReadFollowsIdOrder). An unreachable database gives Unavailable. |
| SqliteStore.ReadOfColumn | sqlite_store.go:30-45 | A read depends only on reachability and on the thread's column. |
| SqliteStore.SaveAppendsToColumn | sqlite_store.go:26 | After a successful save, the thread's column is the old column with the new content last. |
| SqliteStore.SaveThenRead | sqlite_store.go:26-44 | Read-your-writes: after a save, a read returns the previous read with the message appended. If the previous read failed, the new read fails the same way. |
| SqliteStore.SaveIsolation | sqlite_store.go:25-31 | Saving to thread A leaves the rows, column and read of every other thread B unchanged. |
| SqliteStore.UnsavedThreadReadsEmpty | sqlite_store.go:36-44 | A reachable thread with no rows reads as the empty sequence. |
| SqliteStore.ReadFollowsIdOrder | sqlite_store.go:19-31 | On a table stored in id order, the selected rows' ids strictly increase. The read therefore follows `order by id`, which is insertion order. |
| MessageCodec.Encode | redis_store.go:24 | The stored text opens with the role key and ends with the closing brace. Escaping never drops a character, so the text is at least as long as the role, the content and the fixed keys together. Its inverse is stated by RoundTrip. |
| MessageCodec.Decode | redis_store.go:39 | An accepted text opens with the role key, and each decoded character consumed at least one character of text. Its inverse is stated by RoundTrip. |
| MessageCodec.DecodeParts | redis_store.go:39 | A text made of the role key, a role literal, the content key, a content literal and a closing brace decodes to that role and content. |
| MessageCodec.LexEscapeChar | redis_store.go:24-39 | Decoding any character's escape gives back that character, and decoding stops right after the escape. |
| MessageCodec.ReadEscaped | redis_store.go:24-39 | Reading an escaped string literal recovers the string and stops right after its closing quote. |
| MessageCodec.RoundTrip | redis_store.go:24-39 | Decoding the stored text of any Message gives back the same role and content. |
| MessageCodec.EncodeInjective | redis_store.go:24 | Distinct messages are stored as distinct texts. |
| RedisStore.SaveMessage | redis_store.go:23-29 | A save succeeds exactly when the service is reachable and the thread key holds a list or nothing. It appends one encoded record to the tail of the thread's list, creating it when missing, and leaves every other key's value unchanged. An unreachable service gives Unavailable, and a key holding a value of another type gives WrongType. On failure nothing is appended. |
| RedisStore.DecodeAll | redis_store.go:36-44 | Decoding succeeds exactly when every entry decodes. It then returns one record per entry, in list order. Otherwise the error names the first entry that fails, and no partial list is returned. |
| RedisStore.GetMessages | redis_store.go:31-45 | A read succeeds exactly when the service is reachable, the thread key holds a list or nothing, and every entry of the list decodes. It then returns one record per entry, each the decoding of its entry, in list order. An unreachable service gives Unavailable, and a key holding a value of another type gives WrongType. Otherwise the error names the first entry that does not decode, and no partial list is returned. |
| RedisStore.DecodeEncoded | redis_store.go:24-44 | A list of encoded records decodes to exactly those records. |
| RedisStore.DecodeAppend | redis_store.go:28-44 | Pushing an encoded record appends it to a successful decode and keeps any earlier error unchanged. |
| RedisStore.SaveThenGet | redis_store.go:23-45 | After a save, a read returns the previous read with the saved record appended, role and content intact. |
| RedisStore.SaveIsolation | redis_store.go:23-45 | Saving under one thread leaves the read of every other thread unchanged. |
| RedisStore.MissingKeyReadsEmpty | redis_store.go:31-44 | A reachable thread that was never saved to reads as the empty sequence. |
| RedisStore.WrongTypeKeyFails | redis_store.go:28-34 | On a reachable service, a thread key holding a value that is not a list fails both the push and the range read with WrongType. |
| RedisStore.SavedRecordsReadBack | redis_store.go:23-45 | A thread written only by saves reads back exactly the records saved, in save order. |
| Assembly.ThreadId | responses.go:43-45 | An empty thread id is replaced by the generated one, and a non-empty one is kept. The result is never empty. |
| Assembly.Flip | responses.go:66-70 | The toggle always yields user or assistant. It yields assistant exactly when the current role is user, and user after assistant. |
| Assembly.Label | responses.go:63-71 | The labelling loop yields one message per history entry. What each message holds is stated by LabelToggles and LabelAlternates. |
| Assembly.LabelToggles | responses.go:63-71 | The loop keeps every entry's content in place. The first entry gets the starting role, and each later entry gets the toggle of its predecessor's role. |
| Assembly.LabelAlternates | responses.go:63-71 | Starting the toggle at position `offset`'s role, the loop gives entry i the role of position i + offset, decided by parity. Contents and their order are kept. |
| Assembly.ExchangeLabels | responses.go:63-71 | An input stored at an even position and its reply right after it are sent as user and assistant. |
| Assembly.Assemble | responses.go:59-71 | The list has length `|history|` plus one when instructions are non-empty. Its first element is `{system, instructions}` exactly when instructions are non-empty. History entry i follows as `user` for even i and `assistant` for odd i, with its content unchanged. |
| Assembly.HistoryPositions | responses.go:46-71 | In a history of one input and one reply per exchange, exchange k's input is at position 2k and its reply at 2k+1. |
| Assembly.AlternationMatchesTurns | responses.go:63-71 | When every exchange stored one input and then one reply, alternation sends each input as user and each reply as assistant. |
| Assembly.NextInputLabels | responses.go:46-71 | After completed exchanges, a single new input is sent as user, with all past labels correct. |
| Assembly.SecondInputSentAsAssistant | responses.go:46-71 | A request that brings two inputs to a thread of completed exchanges has its second input sent as assistant. An exchange whose reply was not saved shifts the roles in the same way. |
| Forwarder.Get | responses.go:89 | Header lookup returns the first value under the name, and "" exactly when the name is absent, has no values, or has "" as its first value. |
| Forwarder.Add | responses.go:86 | Adding a value appends it after the name's existing values and leaves every other name untouched. |
| Forwarder.AddEach | responses.go:85-87 | The inner loop leaves the name with its earlier values followed by all the inbound values in order. The name is present afterwards exactly when it was before or a value was added. Every other name is untouched. |
| Forwarder.CopyLoop | responses.go:84-88 | The outer loop never removes a name, and a name it never visits keeps exactly what it had. |
| Forwarder.AddEachSpec | responses.go:85-87 | The inner loop appends all of one name's values, in order, and adds nothing for a name with no values. |
| Forwarder.CopyLoopSpec | responses.go:84-88 | Over names visited once each, the outer loop leaves a name present exactly when it was there before or was visited with a value. A visited name holds all its inbound values. |
| Forwarder.CopyHeaders | responses.go:84-88 | For every order that visits each inbound name once, the copy holds exactly the inbound names that have at least one value, each with all its values in order. |
| Forwarder.CopyIsComprehension | responses.go:84-88 | Whatever the visiting order, the loop builds the map of every inbound name with a value to all its values. |
| Forwarder.CopyOrderIrrelevant | responses.go:84-88 | Two visiting orders give the same copy. |
| Forwarder.ForwardHeaders | responses.go:84-91 | Every header other than Authorization is copied unchanged. Authorization becomes the single value `Bearer <key>` when a key is configured and the first caller Authorization value is empty or absent. Otherwise the headers are exactly the copy. The first upstream Authorization value is the credential in the first case and the caller's in the second. |
| Forwarder.CallerAuthorizationKept | responses.go:89-91 | When the first caller Authorization value is non-empty, every caller Authorization value goes upstream unchanged, whatever key is configured. |
| Forwarder.CredentialInjectedIff | responses.go:89-91 | The forwarded headers differ from the copy exactly when a key is configured and the first caller Authorization value is empty or absent. The first value is then `Bearer <key>`. |
| Forwarder.EmptyFirstValueReplaced | responses.go:89-90 | A caller whose Authorization values are an empty one followed by a real one has both replaced by the single value `Bearer <key>`. |
| StreamRelay.SentinelIsDonePayload | responses.go:110-113 | The sentinel test is exactly "a `data: ` line whose payload is `[DONE]`". |
| StreamRelay.DeltaText | responses.go:125-128 | A delta contributes its content, or its text when the content is empty. |
| StreamRelay.Contribution | responses.go:110-131 | Non-data lines, payloads that do not decode, and events with no choices contribute nothing. Otherwise the line contributes choice 0's content-then-text fallback. |
| StreamRelay.Cutoff | responses.go:104-114 | The position of the first sentinel line, or the line count. No earlier line is a sentinel. |
| StreamRelay.RelayFrom | responses.go:104-133 | The loop only appends to what was sent and to the accumulator, and it sends something for every line it reads. Its full effect is stated by RelayFromSpec. |
| StreamRelay.RelayFromSpec | responses.go:104-133 | From any state, the loop appends the echo of every line up to and including the first sentinel. It adds the contributions of exactly the lines before the sentinel. |
| StreamRelay.RelayLines | responses.go:103-133 | Starting from nothing, the caller gets `line + "\n"` for each line read, up to and including the first sentinel. The accumulator holds the concatenated contributions of the lines before the sentinel. |
| StreamRelay.NothingAfterSentinel | responses.go:112-114 | Lines after the sentinel change neither the output nor the accumulator. |
| StreamRelay.Lines | responses.go:102-105 | The scanner yields no lines exactly for the empty body, and no line it yields contains a newline. |
| StreamRelay.LinesStep | responses.go:102-105 | Without carriage returns, the scanner cuts the body at its first newline. |
| StreamRelay.EchoOfLines | responses.go:102-106 | For a body without carriage returns, echoing the scanned lines gives the body back byte for byte. One newline is added only when the last line was unterminated. |
| BufferedRelay.ReplyText | responses.go:146-163 | The extracted text is the first non-empty of choice 0's `message.content`, `message.text` and `text`. It is empty when the body does not decode or has no choices. |
| BufferedRelay.FlatTextFallback | responses.go:156-163 | A body whose choice 0 has only `text` populated yields exactly that text. |
| Responses.SaveInputs | responses.go:46-52 | The loop succeeds exactly when there are no inputs, or the database is reachable and has room for all of them. When every save succeeds, the thread's column is the old column followed by the inputs in request order. On a failure, the column lies between the old column and that full result and is a proper prefix of the latter. Other threads are untouched, and a healthy database never fails. |
| Responses.SaveInputsStep | responses.go:46-52 | One turn of the input loop keeps the loop's promises for the whole input. |
| Responses.SaveReply | responses.go:134-138 | The assistant text is saved once, only when non-empty, and only to its thread. A failed save leaves the database as it was. |
| Responses.BuildUpstream | responses.go:59-91 | The upstream request goes to `/v1/chat/completions` with the caller's model and stream flag. Its messages are the instructions as a system message when there are any, then every history entry in order under its positional role. For every order that visits each header name once, its headers copy every non-Authorization caller header unchanged. The first Authorization value is `Bearer <key>` when a key is configured and the caller's first value is empty or absent, and the caller's first value otherwise. |
| Responses.RelayReply | responses.go:99-171 | Stream mode sends every scanned line up to and including the first sentinel, newline-terminated, under the upstream content type. Buffered mode sends the body unchanged as `application/json`. When the database accepts writes, the thread gains the assistant text (the stream's contributions or the body's choice text) exactly when it is non-empty. Otherwise nothing changes. Other threads are never touched. |
| Responses.Handle | responses.go:30-173 | For a header visiting order that lists each inbound name once: a non-POST gets 405, and an undecodable body gets 400, both with no write and no upstream call. A relayed response is sent exactly when the upstream answered. The upstream request goes to `/v1/chat/completions` with the caller's model, stream flag and forwarded headers. Threads other than the request's never change. What the thread holds after a failure is stated by FailedCallKeepsSavedInputs. |
| Responses.ForwardedHistory | responses.go:46-62 | A valid POST goes upstream exactly when the database is reachable, has room for every input, and the thread's stored contents hold no NULL. The list sent is then built from the old stored contents followed by the inputs. Otherwise a save or the read failed, and the caller gets 500 with nothing sent upstream. |
| Responses.SavedThenRead | responses.go:46-58 | After the input loop succeeds, the read succeeds exactly when the database is reachable and the thread's old contents hold no NULL. It then returns those contents followed by the inputs in request order. |
| Responses.ForwardedHeaders | responses.go:84-91 | A forwarded request carries every caller header other than Authorization unchanged, and no other such header. Its first Authorization value is `Bearer <key>` when a key is configured and the caller's first value is empty or absent, and the caller's first value otherwise. |
| Responses.RelayedPath | responses.go:46-171 | A call answered with a relayed response saved every input, read the history back and went upstream. Its response and final table are what the relay produced from the upstream reply. |
| Responses.RelayOnlyAppends | responses.go:99-171 | The relay never removes or rewrites stored content: the thread's column before the relay is a prefix of the column after it. |
| Responses.FailedCallKeepsSavedInputs | responses.go:46-97 | A valid POST never shrinks its thread. When the caller gets no relayed response (a 500 from a failed save or read, or a 502), the database is exactly as the input loop left it: inputs saved before the failure stay, and nothing is rolled back. |
| Responses.HealthyForwards | responses.go:46-92 | On a healthy database whose thread holds no NULL, every valid POST reaches the upstream. |
| Responses.BufferedRelayed | responses.go:140-171 | In buffered mode, the caller gets the upstream body unchanged as `application/json`. On a healthy database the thread ends with the inputs, then the extracted text when it is non-empty. |
| Responses.StreamRelayed | responses.go:99-138 | In stream mode, the caller gets every scanned line up to and including the first sentinel, each newline-terminated, under the upstream content type. On a healthy database the thread ends with the inputs, then the accumulated text, saved once and only when non-empty. |
| Responses.StreamEchoVerbatim | responses.go:102-106 | A newline-terminated upstream body with no carriage return and no sentinel reaches the caller byte for byte. |
| Responses.ConversationLabels | responses.go:46-71 | On a thread of completed exchanges, a single-input call sends past inputs as user, past replies as assistant, and the new input as user. |
| Responses.HistoryExtended | responses.go:46-138 | A thread holding past exchanges, followed by one saved input and its saved reply, holds the history of those exchanges extended by that one. |
| Responses.ConversationPersists | responses.go:46-171 | A completed buffered exchange with a non-empty reply extends the thread by this input and reply. The thread stays a history of completed exchanges. |
| Responses.NewThreadRoundTrip | responses.go:43-171 | A call with no thread id runs on the generated id. For a buffered call with one input, on a healthy database where the generated id is unused, a relayed reply with non-empty text leaves that id reading back exactly the input followed by the reply text. |
| Responses.NewThreadEmptyReply | responses.go:43-171 | Under the same conditions, a relayed reply whose text is empty saves nothing for the reply, and the generated id reads back the input alone. |

## Left out

- The pass-through reverse proxy for other paths is left out. It is a library handler with no memory interaction.
- The upstream HTTP call is a parameter that returns a reply or a transport failure (502). Flushing after each line is not modelled, and neither is a failing `io.ReadAll` of a buffered body (a second 502 path). These are network I/O.
- JSON decoding of the request body, of stream events and of completion bodies is a decoder parameter. Only its result is modelled: None, or the fields Go's decoder fills in. The request body's decoder is the `Inbound.body` option.
- JSON encoding of the upstream payload is not modelled. The upstream request is kept as a record.
- The uuid generator is the `Env.freshId` parameter, assumed non-empty.
- Connection setup, ping, schema creation and the `created_at` timestamp are not modelled. They are I/O that no read depends on.
- Logging is left out. So is concurrency: concurrent writers to one thread have no ordering beyond each backend's atomic append.
- The order in which ranging over the header map visits names is unspecified in Go. It is the `Inbound.headerOrder` parameter. `Handle` requires that it lists each inbound name exactly once, which is all a map range can do, and the header contracts hold for every such order.
- Header names are assumed to be in canonical form already, as the server delivers them. Headers the transport adds (User-Agent, Content-Length) are not modelled.
- SqliteStore.GetMessages: an error reported only after iteration (`rows.Err()`) is not modelled. The source never checks it, so such an error would return a partial list as a success.
- StreamRelay.Lines: the scanner's 64 KiB token limit is not modelled. A longer line ends the stream early without an error.
- MessageCodec.Decode: this is a strict inverse of the encoder. It rejects valid JSON that Go's lenient decoder would accept, such as reordered keys, whitespace, extra fields or surrogate-pair escapes. Reads of lists written by other clients are therefore modelled more strictly than the source reads them.
- RedisStore.SaveMessage: the encode-error branch is unreachable, because a record of two strings always encodes. Strings are Unicode scalar sequences here, so Go's replacement of invalid UTF-8 does not arise.
- memory.go's `Memory` interface and main.go's `chatRequest` are not part of this model. The interface takes Message records, which the handler never passes. The request type lacks the `input` and `instructions` fields the handler reads.

=== FILE: assembly.dfy ===
/** Conversation assembly: choosing the thread, and turning the thread's
    stored contents into the upstream message list. The string store keeps
    no roles, so roles are reconstructed by position. */
module Assembly {
  import opened Messages

  /** The thread a request runs on: the caller's id, or a freshly generated
      one when the caller gave none. */
  function ThreadId(requested: string, freshId: string): (t: string)
    requires freshId != ""
    ensures t != ""
    ensures requested != "" ==> t == requested
    ensures requested == "" ==> t == freshId
  {
    if requested == "" then freshId else requested
  }

  /** The role after `role` in the loop's toggle: always user or assistant,
      and the other one of the two when `role` is one of them. */
  function Flip(role: string): (next: string)
    ensures next == UserRole || next == AssistantRole
    ensures role == UserRole <==> next == AssistantRole
    ensures role == AssistantRole ==> next == UserRole
  {
    assert AssistantRole != UserRole by { assert |AssistantRole| != |UserRole|; }
    if role == UserRole then AssistantRole else UserRole
  }

  /** The labelling loop: give each entry the current role, then toggle. */
  function Label(history: seq<string>, role: string): (msgs: seq<Message>)
    ensures |msgs| == |history|
  {
    if history == [] then []
    else [Message(role, history[0])] + Label(history[1..], Flip(role))
  }

  /** What the labelling loop builds: the contents in order, the first entry
      with `role`, and each later entry with the toggle of its predecessor's
      role. */
  lemma {:induction false} LabelToggles(history: seq<string>, role: string)
    ensures var msgs := Label(history, role);
      && (forall i :: 0 <= i < |msgs| ==> msgs[i].content == history[i])
      && (|msgs| > 0 ==> msgs[0].role == role)
      && (forall i :: 0 <= i < |msgs| - 1 ==> msgs[i + 1].role == Flip(msgs[i].role))
    decreases |history|
  {
    if history != [] {
      var msgs := Label(history, role);
      var tail := Label(history[1..], Flip(role));
      LabelToggles(history[1..], Flip(role));
      assert msgs == [Message(role, history[0])] + tail;
      forall i | 0 < i < |msgs| ensures msgs[i] == tail[i - 1] { }
    }
  }

  /** The role strict alternation assigns to position `i` of the history. */
  function PositionalRole(i: nat): string
  {
    if i % 2 == 0 then UserRole else AssistantRole
  }

  /** One toggle moves the role one position on. */
  lemma FlipStep(n: nat)
    ensures Flip(PositionalRole(n)) == PositionalRole(n + 1)
  {
    assert AssistantRole != UserRole by { assert |AssistantRole| != |UserRole|; }
  }

  /** Toggling from the role of position `offset` labels entry `i` with the
      role of position `i + offset`: parity decides, contents stay in place. */
  lemma {:induction false} LabelAlternates(history: seq<string>, offset: nat)
    ensures forall i :: 0 <= i < |history| ==>
      Label(history, PositionalRole(offset))[i] == Message(PositionalRole(i + offset), history[i])
    decreases |history|
  {
    if history != [] {
      FlipStep(offset);
      LabelAlternates(history[1..], offset + 1);
      var msgs := Label(history, PositionalRole(offset));
      var tail := Label(history[1..], PositionalRole(offset + 1));
      assert msgs == [Message(PositionalRole(offset), history[0])] + tail;
      forall i | 0 < i < |history|
        ensures msgs[i] == Message(PositionalRole(i + offset), history[i])
      {
        assert msgs[i] == tail[i - 1];
        assert (i - 1) + (offset + 1) == i + offset;
      }
    }
  }

  /** The upstream message list: an ephemeral system message carrying the
      instructions when there are any, then the history labelled by strict
      alternation starting at user. */
  function Assemble(instructions: string, history: seq<string>): (msgs: seq<Message>)
    ensures |msgs| == |history| + (if instructions != "" then 1 else 0)
    ensures instructions != "" <==> |msgs| > 0 && msgs[0] == Message(SystemRole, instructions)
    ensures var offset := if instructions != "" then 1 else 0;
      forall i :: 0 <= i < |history| ==> msgs[offset + i] == Message(PositionalRole(i), history[i])
  {
    var labelled := Label(history, UserRole);
    LabelAlternates(history, 0);
    if instructions != "" then
      var msgs := [Message(SystemRole, instructions)] + labelled;
      assert forall i :: 0 <= i < |history| ==> msgs[1 + i] == labelled[i];
      msgs
    else
      assert UserRole != SystemRole by { assert UserRole[0] != SystemRole[0]; }
      assert |labelled| > 0 ==> labelled[0].role == UserRole;
      labelled
  }

  /** One completed exchange as the string store keeps it: the caller's
      input, then the assistant's reply. */
  datatype Turn = Turn(input: string, reply: string)

  /** The stored history of a sequence of exchanges. */
  function History(turns: seq<Turn>): (h: seq<string>)
    ensures |h| == 2 * |turns|
  {
    if turns == [] then [] else [turns[0].input, turns[0].reply] + History(turns[1..])
  }

  /** Where the history holds one input and one reply per exchange, in that
      order, position k of the history is exchange k/2's input or reply. */
  lemma {:induction false} HistoryPositions(turns: seq<Turn>)
    ensures forall k :: 0 <= k < |turns| ==>
      History(turns)[2 * k] == turns[k].input && History(turns)[2 * k + 1] == turns[k].reply
    decreases |turns|
  {
    if turns != [] {
      HistoryPositions(turns[1..]);
      forall k | 0 < k < |turns|
        ensures History(turns)[2 * k] == turns[k].input && History(turns)[2 * k + 1] == turns[k].reply
      {
        assert History(turns)[2 * k] == History(turns[1..])[2 * (k - 1)];
        assert History(turns)[2 * k + 1] == History(turns[1..])[2 * (k - 1) + 1];
      }
    }
  }

  /** Even positions are the user's, odd ones the assistant's. */
  lemma EvenOddRoles(k: nat)
    ensures PositionalRole(2 * k) == UserRole
    ensures PositionalRole(2 * k + 1) == AssistantRole
  {
  }

  /** An input at an even position 2k followed by a reply at 2k + 1 go
      upstream as user and as assistant. */
  lemma ExchangeLabels(instructions: string, history: seq<string>, k: nat, input: string, reply: string)
    requires 2 * k + 1 < |history|
    requires history[2 * k] == input && history[2 * k + 1] == reply
    ensures var msgs := Assemble(instructions, history);
      var offset := if instructions != "" then 1 else 0;
      && msgs[offset + 2 * k] == Message(UserRole, input)
      && msgs[offset + 2 * k + 1] == Message(AssistantRole, reply)
  {
    var msgs := Assemble(instructions, history);
    var offset := if instructions != "" then 1 else 0;
    var i := 2 * k;
    EvenOddRoles(k);
    assert msgs[offset + i] == Message(PositionalRole(i), history[i]);
    assert msgs[offset + (i + 1)] == Message(PositionalRole(i + 1), history[i + 1]);
  }

  /** Alternation reconstructs the true roles exactly when every exchange
      stored one input followed by one reply: each input is sent as user and
      each reply as assistant. */
  lemma AlternationMatchesTurns(instructions: string, turns: seq<Turn>)
    ensures var msgs := Assemble(instructions, History(turns));
      var offset := if instructions != "" then 1 else 0;
      forall k :: 0 <= k < |turns| ==>
        && msgs[offset + 2 * k] == Message(UserRole, turns[k].input)
        && msgs[offset + 2 * k + 1] == Message(AssistantRole, turns[k].reply)
  {
    HistoryPositions(turns);
    forall k | 0 <= k < |turns|
      ensures var msgs := Assemble(instructions, History(turns));
        var offset := if instructions != "" then 1 else 0;
        && msgs[offset + 2 * k] == Message(UserRole, turns[k].input)
        && msgs[offset + 2 * k + 1] == Message(AssistantRole, turns[k].reply)
    {
      ExchangeLabels(instructions, History(turns), k, turns[k].input, turns[k].reply);
    }
  }

  /** The positional heuristic mislabels a request that brings two inputs to
      a thread of completed exchanges: its second input is sent upstream as
      the assistant's. */
  lemma SecondInputSentAsAssistant(instructions: string, past: seq<Turn>, inputs: seq<string>)
    requires |inputs| >= 2
    ensures var msgs := Assemble(instructions, History(past) + inputs);
      var offset := if instructions != "" then 1 else 0;
      msgs[offset + 2 * |past| + 1] == Message(AssistantRole, inputs[1])
  {
    var h := History(past) + inputs;
    var msgs := Assemble(instructions, h);
    var offset := if instructions != "" then 1 else 0;
    var i := 2 * |past| + 1;
    assert h[i] == inputs[1];
    EvenOddRoles(|past|);
    assert msgs[offset + i] == Message(PositionalRole(i), h[i]);
  }

  /** `msgs`, after `offset` leading messages, sends every past input as
      user, every past reply as assistant, and then `input` as user. */
  predicate LabelsTurns(msgs: seq<Message>, offset: nat, past: seq<Turn>, input: string)
  {
    && |msgs| == offset + 2 * |past| + 1
    && (forall k :: 0 <= k < |past| ==>
          && msgs[offset + 2 * k] == Message(UserRole, past[k].input)
          && msgs[offset + 2 * k + 1] == Message(AssistantRole, past[k].reply))
    && msgs[offset + 2 * |past|] == Message(UserRole, input)
  }

  /** A single new input after completed exchanges: the past inputs go as
      user, the past replies as assistant, and the new input as user. */
  lemma NextInputLabels(instructions: string, past: seq<Turn>, input: string)
    ensures LabelsTurns(Assemble(instructions, History(past) + [input]),
                        if instructions != "" then 1 else 0, past, input)
  {
    var h := History(past);
    var all := h + [input];
    var msgs := Assemble(instructions, all);
    var offset := if instructions != "" then 1 else 0;
    HistoryPositions(past);
    forall k | 0 <= k < |past|
      ensures msgs[offset + 2 * k] == Message(UserRole, past[k].input)
      ensures msgs[offset + 2 * k + 1] == Message(AssistantRole, past[k].reply)
    {
      assert all[2 * k] == h[2 * k] && all[2 * k + 1] == h[2 * k + 1];
      ExchangeLabels(instructions, all, k, past[k].input, past[k].reply);
    }
    EvenOddRoles(|past|);
    assert all[2 * |past|] == input;
    assert msgs[offset + 2 * |past|] == Message(PositionalRole(2 * |past|), all[2 * |past|]);
  }
}

=== FILE: buffered_relay.dfy ===
/** The buffered relay: pick the assistant's text out of a complete upstream
    body by a fixed fallback order. */
module BufferedRelay {
  import opened Wrappers
  import opened Messages

  /** The `message` object of a choice. */
  datatype ChoiceMessage = ChoiceMessage(content: string, text: string)

  /** One entry of `choices`: its message and its flat `text` field. */
  datatype Choice = Choice(message: ChoiceMessage, text: string)

  /** A decoded completion body. */
  datatype Completion = Completion(choices: seq<Choice>)

  /** The JSON decoder applied to the body: None where the body is not JSON
      at all (the decoder then leaves nothing filled in); Some with whatever
      fields it filled in otherwise. */
  type CompletionDecoder = string -> Option<Completion>

  /** The fields of a choice in fallback order. */
  function Candidates(c: Choice): seq<string>
  {
    [c.message.content, c.message.text, c.text]
  }

  /** The reply text: the first non-empty of choice 0's message content,
      message text and flat text; "" for an undecodable body or one with no
      choices. */
  function ReplyText(parsed: Option<Completion>): (t: string)
    ensures parsed.None? ==> t == ""
    ensures parsed.Some? && parsed.value.choices == [] ==> t == ""
    ensures parsed.Some? && parsed.value.choices != [] ==>
      IsFirstNonEmpty(Candidates(parsed.value.choices[0]), t)
  {
    if parsed.None? || parsed.value.choices == [] then ""
    else
      var c := parsed.value.choices[0];
      var content := c.message.content;
      var content := if content == "" then c.message.text else content;
      var content := if content == "" then c.text else content;
      assert Candidates(c)[0] == c.message.content;
      assert Candidates(c)[1] == c.message.text;
      assert Candidates(c)[2] == c.text;
      content
  }

  /** A body with only the flat `text` of choice 0 populated yields exactly
      that text. */
  lemma FlatTextFallback(parsed: Option<Completion>)
    requires parsed.Some? && parsed.value.choices != []
    requires parsed.value.choices[0].message == ChoiceMessage("", "")
    ensures ReplyText(parsed) == parsed.value.choices[0].text
  {
    var c := parsed.value.choices[0];
    var t := ReplyText(parsed);
    if t != "" {
      var k :| 0 <= k < 3 && Candidates(c)[k] == t && forall j :: 0 <= j < k ==> Candidates(c)[j] == "";
      assert k == 2;
    }
  }
}

=== FILE: forwarder.dfy ===
/** Building the upstream request's headers: copy every inbound header, then
    inject the configured credential only where the copy's first
    Authorization value is empty or absent. */
module Forwarder {

  /** A header map: canonical header name to its values, in order. */
  type Headers = map<string, seq<string>>

  const AuthorizationHeader: string := "Authorization"
  const BearerPrefix: string := "Bearer "

  /** The values under `key`, none when the name is absent. */
  function Values(h: Headers, key: string): seq<string>
  {
    if key in h then h[key] else []
  }

  /** Header lookup: the first value under `key`, or "" when there is none. */
  function Get(h: Headers, key: string): (v: string)
    ensures v != "" ==> key in h && |h[key]| > 0 && v == h[key][0]
    ensures key in h && |h[key]| > 0 ==> v == h[key][0]
  {
    if key in h && |h[key]| > 0 then h[key][0] else ""
  }

  /** Header.Add: append one value under `key`, keeping the earlier ones. */
  function Add(h: Headers, key: string, value: string): (out: Headers)
    ensures key in out && out[key] == Values(h, key) + [value]
    ensures forall k :: k != key ==> (k in out <==> k in h) && (k in h ==> out[k] == h[k])
  {
    h[key := Values(h, key) + [value]]
  }

  /** The inner copy loop: add each value of one inbound name, in order.
      The name ends up with its earlier values followed by all of these, is
      present afterwards when it was before or a value was added, and no
      other name changes. */
  function AddEach(h: Headers, key: string, values: seq<string>): (out: Headers)
    ensures Values(out, key) == Values(h, key) + values
    ensures key in out <==> key in h || values != []
    ensures forall k :: k != key ==> (k in out <==> k in h) && (k in out ==> out[k] == h[k])
    decreases |values|
  {
    if values == [] then h
    else
      var out := AddEach(Add(h, key, values[0]), key, values[1..]);
      assert Values(h, key) + [values[0]] + values[1..] == Values(h, key) + values;
      out
  }

  /** The outer copy loop: visit the inbound names in `order`, the order in
      which ranging over the inbound map visits them, and add all values of
      each. Names already present stay, and names never visited keep what
      they had. */
  function CopyLoop(h: Headers, inbound: Headers, order: seq<string>): (out: Headers)
    ensures forall k :: k in h ==> k in out
    ensures forall k :: k !in order ==> (k in out <==> k in h) && (k in out ==> out[k] == h[k])
    decreases |order|
  {
    if order == [] then h
    else CopyLoop(AddEach(h, order[0], Values(inbound, order[0])), inbound, order[1..])
  }

  /** `order` visits every name of `inbound` exactly once, as ranging over a
      map does. */
  predicate ListsKeys(order: seq<string>, inbound: Headers)
  {
    && (forall i, j :: 0 <= i < j < |order| ==> order[i] != order[j])
    && (forall i :: 0 <= i < |order| ==> order[i] in inbound)
    && (forall k :: k in inbound ==> k in order)
  }

  /** The copy into the new request's empty header map. Whatever order the
      names are visited in, the copy holds exactly the inbound names that
      have at least one value, each with all its values in order. */
  function CopyHeaders(inbound: Headers, order: seq<string>): (out: Headers)
    ensures ListsKeys(order, inbound) ==>
      forall k :: k in out <==> k in inbound && inbound[k] != []
    ensures ListsKeys(order, inbound) ==>
      forall k :: k in out ==> out[k] == inbound[k]
  {
    var out := CopyLoop(map[], inbound, order);
    if ListsKeys(order, inbound) then CopyLoopSpec(map[], inbound, order); out else out
  }

  /** The inner loop appends all the values to the name's existing ones and
      leaves every other name alone; with no values it adds nothing. */
  lemma {:induction false} AddEachSpec(h: Headers, key: string, values: seq<string>)
    ensures values == [] ==> AddEach(h, key, values) == h
    ensures values != [] ==> AddEach(h, key, values) == h[key := Values(h, key) + values]
    decreases |values|
  {
    if values != [] {
      var h1 := Add(h, key, values[0]);
      AddEachSpec(h1, key, values[1..]);
      if values[1..] != [] {
        assert Values(h, key) + [values[0]] + values[1..] == Values(h, key) + values;
        assert h1[key := Values(h1, key) + values[1..]] == h[key := Values(h, key) + values];
      } else {
        assert values == [values[0]];
      }
    }
  }

  /** The outer loop over distinct names not yet in `h`: a visited name is
      present afterwards exactly when it has a value, with all its values,
      and every other name keeps what `h` had. */
  lemma {:induction false} CopyLoopSpec(h: Headers, inbound: Headers, order: seq<string>)
    requires forall i, j :: 0 <= i < j < |order| ==> order[i] != order[j]
    requires forall i :: 0 <= i < |order| ==> order[i] !in h
    ensures forall k :: k in CopyLoop(h, inbound, order) <==>
      k in h || (k in order && Values(inbound, k) != [])
    ensures forall k :: k in CopyLoop(h, inbound, order) ==>
      CopyLoop(h, inbound, order)[k] == if k in order then Values(inbound, k) else h[k]
    decreases |order|
  {
    if order != [] {
      var key := order[0];
      var rest := order[1..];
      var h1 := AddEach(h, key, Values(inbound, key));
      AddEachSpec(h, key, Values(inbound, key));
      assert Values(h, key) == [];
      forall i | 0 <= i < |rest| ensures rest[i] !in h1 {
        assert rest[i] == order[i + 1];
      }
      CopyLoopSpec(h1, inbound, rest);
      assert forall k :: k in order <==> k == key || k in rest;
    }
  }

  /** Whatever the visiting order, the copy loop builds the map of every
      inbound name with a value to all its values. */
  lemma CopyIsComprehension(inbound: Headers, order: seq<string>)
    requires ListsKeys(order, inbound)
    ensures CopyHeaders(inbound, order) == map k | k in inbound && inbound[k] != [] :: inbound[k]
  {
  }

  /** The copy does not depend on the order the names are visited in. */
  lemma CopyOrderIrrelevant(inbound: Headers, order1: seq<string>, order2: seq<string>)
    requires ListsKeys(order1, inbound) && ListsKeys(order2, inbound)
    ensures CopyHeaders(inbound, order1) == CopyHeaders(inbound, order2)
  {
  }

  /** The credential is injected: a key is configured and the caller's
      first Authorization value is empty or absent. */
  predicate InjectsCredential(inbound: Headers, apiKey: string)
  {
    apiKey != "" && Get(inbound, AuthorizationHeader) == ""
  }

  /** The upstream request's headers: the copy, then the credential where
      the copy's first Authorization value is empty or absent. */
  function ForwardHeaders(inbound: Headers, order: seq<string>, apiKey: string): (out: Headers)
    ensures ListsKeys(order, inbound) ==>
      forall k :: k != AuthorizationHeader ==>
        && (k in out <==> k in inbound && inbound[k] != [])
        && (k in out ==> out[k] == inbound[k])
    ensures ListsKeys(order, inbound) && InjectsCredential(inbound, apiKey) ==>
      AuthorizationHeader in out && out[AuthorizationHeader] == [BearerPrefix + apiKey]
    ensures ListsKeys(order, inbound) && !InjectsCredential(inbound, apiKey) ==>
      out == CopyHeaders(inbound, order)
    ensures ListsKeys(order, inbound) ==>
      Get(out, AuthorizationHeader) ==
        if InjectsCredential(inbound, apiKey) then BearerPrefix + apiKey else Get(inbound, AuthorizationHeader)
  {
    var copied := CopyHeaders(inbound, order);
    if apiKey != "" && Get(copied, AuthorizationHeader) == "" then
      copied[AuthorizationHeader := [BearerPrefix + apiKey]]
    else copied
  }

  /** A non-empty first caller Authorization value is never overwritten:
      then all inbound Authorization values go upstream unchanged, whatever
      key is configured. */
  lemma CallerAuthorizationKept(inbound: Headers, order: seq<string>, apiKey: string)
    requires ListsKeys(order, inbound)
    requires Get(inbound, AuthorizationHeader) != ""
    ensures AuthorizationHeader in ForwardHeaders(inbound, order, apiKey)
    ensures ForwardHeaders(inbound, order, apiKey)[AuthorizationHeader] == inbound[AuthorizationHeader]
  {
  }

  /** The forwarded headers differ from the copy exactly when the credential
      is injected; then the first Authorization value is the bearer
      credential. */
  lemma CredentialInjectedIff(inbound: Headers, order: seq<string>, apiKey: string)
    requires ListsKeys(order, inbound)
    ensures var out := ForwardHeaders(inbound, order, apiKey);
      out != CopyHeaders(inbound, order) <==> InjectsCredential(inbound, apiKey)
    ensures InjectsCredential(inbound, apiKey) ==>
      Get(ForwardHeaders(inbound, order, apiKey), AuthorizationHeader) == BearerPrefix + apiKey
  {
    var out := ForwardHeaders(inbound, order, apiKey);
    var copied := CopyHeaders(inbound, order);
    if InjectsCredential(inbound, apiKey) {
      assert Get(copied, AuthorizationHeader) == "";
      assert Get(out, AuthorizationHeader) == BearerPrefix + apiKey;
    }
  }

  /** Only the first caller Authorization value is consulted: an empty first
      value followed by a real credential is replaced, with both values, by
      the configured one. */
  lemma EmptyFirstValueReplaced()
    ensures var inbound := map[AuthorizationHeader := ["", "Bearer caller"]];
      ForwardHeaders(inbound, [AuthorizationHeader], "k")[AuthorizationHeader] == [BearerPrefix + "k"]
  {
    var inbound := map[AuthorizationHeader := ["", "Bearer caller"]];
    assert ListsKeys([AuthorizationHeader], inbound);
    assert InjectsCredential(inbound, "k");
  }
}

=== FILE: message_codec.dfy ===
/** The JSON text the key-value store keeps for one Message: the object
    `{"role":"…","content":"…"}` that Go's encoder writes for the record, with
    its string escaping, and a decoder for that form. */
module MessageCodec {
  import opened Wrappers
  import opened Messages

  /** Characters the encoder writes as a `\u` escape: control characters
      without a short form, the HTML-sensitive `<`, `>` and `&`, and the line
      and paragraph separators U+2028 and U+2029. */
  predicate NeedsUnicodeEscape(c: char)
  {
    c < ' ' || c == '<' || c == '>' || c == '&' || c as int == 0x2028 || c as int == 0x2029
  }

  /** Lower-case hexadecimal digit for a value below 16. */
  function HexDigit(d: nat): char
    requires d < 16
  {
    if d < 10 then ('0' as int + d) as char else ('a' as int + d - 10) as char
  }

  /** The four hexadecimal digits of a code unit, most significant first. */
  function Hex4(n: nat): string
    requires n < 0x1_0000
  {
    var r1 := n % 0x1000;
    var r2 := r1 % 0x100;
    [HexDigit(n / 0x1000), HexDigit(r1 / 0x100), HexDigit(r2 / 0x10), HexDigit(r2 % 0x10)]
  }

  /** How the encoder writes one character inside a string literal, as
      encoding/json does from Go 1.22 on: backspace and form feed get the
      short escapes `\b` and `\f`, where earlier releases wrote `\u0008`
      and `\u000c`. */
  function EscapeChar(c: char): string
  {
    if c == '"' then "\\\""
    else if c == '\\' then "\\\\"
    else if c as int == 8 then "\\b"
    else if c as int == 12 then "\\f"
    else if c == '\n' then "\\n"
    else if c == '\r' then "\\r"
    else if c == '\t' then "\\t"
    else if NeedsUnicodeEscape(c) then "\\u" + Hex4(c as int)
    else [c]
  }

  /** The body of a string literal: every character escaped in turn, each
      taking at least one character. */
  function Escape(s: string): (e: string)
    ensures |e| >= |s|
  {
    if s == [] then [] else EscapeChar(s[0]) + Escape(s[1..])
  }

  const RoleOpen: string := "{\"role\":\""
  const ContentOpen: string := ",\"content\":\""

  /** The encoder's output for a Message: an object opening with the role
      key, role first, then content, closed by a brace; escaping never drops
      a character. */
  function Encode(m: Message): (s: string)
    ensures StartsWith(s, RoleOpen) && s[|s| - 1] == '}'
    ensures |s| >= |RoleOpen| + |m.role| + |ContentOpen| + |m.content| + 3
  {
    RoleOpen + (Escape(m.role) + "\"" + (ContentOpen + (Escape(m.content) + "\"" + "}")))
  }

  /** The value of one hexadecimal digit, either case. */
  function HexValue(d: char): (v: Option<nat>)
    ensures v.Some? ==> v.value < 16
  {
    if '0' <= d <= '9' then Some(d as int - '0' as int)
    else if 'a' <= d <= 'f' then Some(d as int - 'a' as int + 10)
    else if 'A' <= d <= 'F' then Some(d as int - 'A' as int + 10)
    else None
  }

  /** The code unit four hexadecimal digits spell. */
  function Hex4Value(s: string): (v: Option<nat>)
    requires |s| == 4
    ensures v.Some? ==> v.value < 0x1_0000
  {
    var a := HexValue(s[0]);
    var b := HexValue(s[1]);
    var c := HexValue(s[2]);
    var d := HexValue(s[3]);
    if a.Some? && b.Some? && c.Some? && d.Some? then
      Some(a.value * 0x1000 + b.value * 0x100 + c.value * 0x10 + d.value)
    else None
  }

  /** A code point that is a Unicode scalar value (not a surrogate). */
  predicate IsScalar(n: int)
  {
    0 <= n < 0xD800 || 0xE000 <= n < 0x11_0000
  }

  /** One step through a string literal: the closing quote, or one character
      (written directly or as an escape) and what follows it. */
  datatype Lexeme = Close(rest: string) | Char(c: char, rest: string)

  /** Read one lexeme of a string literal's body; None where JSON forbids
      what follows (a raw control character, an unknown escape, a truncated
      or surrogate `\u` escape). */
  function Lex(s: string): (r: Option<Lexeme>)
    ensures r.Some? ==> |r.value.rest| < |s|
  {
    if s == [] then None
    else if s[0] == '"' then Some(Close(s[1..]))
    else if s[0] == '\\' then
      if |s| < 2 then None
      else
        var e := s[1];
        if e == '"' || e == '\\' || e == '/' then Some(Char(e, s[2..]))
        else if e == 'b' then Some(Char(8 as char, s[2..]))
        else if e == 'f' then Some(Char(12 as char, s[2..]))
        else if e == 'n' then Some(Char('\n', s[2..]))
        else if e == 'r' then Some(Char('\r', s[2..]))
        else if e == 't' then Some(Char('\t', s[2..]))
        else if e == 'u' && |s| >= 6 then
          match Hex4Value(s[2..6])
          case Some(n) => if IsScalar(n) then Some(Char(n as char, s[6..])) else None
          case None => None
        else None
    else if s[0] < ' ' then None
    else Some(Char(s[0], s[1..]))
  }

  /** Read a string literal's body up to its closing quote: the characters it
      denotes and the text after the quote. */
  function ReadString(s: string): (r: Option<(string, string)>)
    ensures r.Some? ==> |r.value.0| + |r.value.1| < |s|
    decreases |s|
  {
    match Lex(s)
    case None => None
    case Some(Close(rest)) => Some(("", rest))
    case Some(Char(c, rest)) =>
      match ReadString(rest)
      case None => None
      case Some((t, after)) => Some(([c] + t, after))
  }

  /** Decode the object form Encode writes; anything else is rejected. A
      decoded text opens with the role key, and every decoded character took
      at least one character of text. */
  function Decode(s: string): (r: Option<Message>)
    ensures r.Some? ==> StartsWith(s, RoleOpen)
    ensures r.Some? ==> |s| >= |RoleOpen| + |r.value.role| + |ContentOpen| + |r.value.content| + 3
  {
    if !StartsWith(s, RoleOpen) then None
    else
      var afterOpen := s[|RoleOpen|..];
      match ReadString(afterOpen)
      case None => None
      case Some((role, rest)) =>
        if !StartsWith(rest, ContentOpen) then None
        else
          var afterKey := rest[|ContentOpen|..];
          match ReadString(afterKey)
          case None => None
          case Some((content, tail)) =>
            if tail == "}" then Some(Message(role, content)) else None
  }

  /** Decode accepts a text made of the role key, a role literal, the
      content key, a content literal and the closing brace. */
  lemma DecodeParts(s: string, role: string, rest: string, content: string)
    requires StartsWith(s, RoleOpen) && ReadString(s[|RoleOpen|..]) == Some((role, rest))
    requires StartsWith(rest, ContentOpen) && ReadString(rest[|ContentOpen|..]) == Some((content, "}"))
    ensures Decode(s) == Some(Message(role, content))
  {
  }

  /** Reading back the digits Hex4 writes gives the code unit. */
  lemma HexRoundTrip(n: nat)
    requires n < 0x1_0000
    ensures Hex4Value(Hex4(n)) == Some(n)
  {
    var r1 := n % 0x1000;
    var r2 := r1 % 0x100;
    HexDigitValue(n / 0x1000);
    HexDigitValue(r1 / 0x100);
    HexDigitValue(r2 / 0x10);
    HexDigitValue(r2 % 0x10);
    assert n == (n / 0x1000) * 0x1000 + r1;
    assert r1 == (r1 / 0x100) * 0x100 + r2;
    assert r2 == (r2 / 0x10) * 0x10 + r2 % 0x10;
  }

  /** Each digit HexDigit writes reads back as its value. */
  lemma HexDigitValue(d: nat)
    requires d < 16
    ensures HexValue(HexDigit(d)) == Some(d)
  {
  }

  /** Text that starts with `p` has `p` as a prefix and `rest` after it. */
  lemma PrefixThenRest(p: string, rest: string)
    ensures StartsWith(p + rest, p)
    ensures (p + rest)[|p|..] == rest
  {
    assert (p + rest)[..|p|] == p;
  }

  /** Lexing an escaped character gives that character back and stops right
      after its escape. */
  lemma LexEscapeChar(c: char, tail: string)
    ensures Lex(EscapeChar(c) + tail) == Some(Char(c, tail))
  {
    var s := EscapeChar(c) + tail;
    if c == '"' || c == '\\' || c as int == 8 || c as int == 12 || c == '\n' || c == '\r' || c == '\t' {
      assert s[2..] == tail;
    } else if NeedsUnicodeEscape(c) {
      HexRoundTrip(c as int);
      assert s[2..6] == Hex4(c as int);
      assert s[6..] == tail;
    } else {
      assert s[1..] == tail;
    }
  }

  /** Reading an escaped string literal recovers the string and stops right
      after its closing quote. */
  lemma {:induction false} ReadEscaped(s: string, tail: string)
    ensures ReadString(Escape(s) + "\"" + tail) == Some((s, tail))
    decreases |s|
  {
    if s == [] {
      assert Escape(s) + "\"" + tail == "\"" + tail;
      assert Lex("\"" + tail) == Some(Close(tail));
    } else {
      var rest := Escape(s[1..]) + "\"" + tail;
      assert Escape(s) + "\"" + tail == EscapeChar(s[0]) + rest;
      LexEscapeChar(s[0], rest);
      ReadEscaped(s[1..], tail);
      assert [s[0]] + s[1..] == s;
    }
  }

  /** Both role and content survive a store round trip. */
  lemma RoundTrip(m: Message)
    ensures Decode(Encode(m)) == Some(m)
  {
    var afterRole := ContentOpen + (Escape(m.content) + "\"" + "}");
    var roleLit := Escape(m.role) + "\"" + afterRole;
    PrefixThenRest(RoleOpen, roleLit);
    ReadEscaped(m.role, afterRole);
    PrefixThenRest(ContentOpen, Escape(m.content) + "\"" + "}");
    ReadEscaped(m.content, "}");
    DecodeParts(Encode(m), m.role, afterRole, m.content);
  }

  /** Distinct messages are stored as distinct texts. */
  lemma EncodeInjective(m1: Message, m2: Message)
    requires Encode(m1) == Encode(m2)
    ensures m1 == m2
  {
    RoundTrip(m1);
    RoundTrip(m2);
  }
}

=== FILE: messages.dfy ===
/** The chat message record and the three roles the upstream chat format uses. */
module Messages {

  /** One chat turn as the upstream API and the key-value store see it. */
  datatype Message = Message(role: string, content: string)

  const SystemRole: string := "system"
  const UserRole: string := "user"
  const AssistantRole: string := "assistant"

  /** `prefix` is an initial segment of `s` (Go's strings.HasPrefix). */
  predicate StartsWith(s: string, prefix: string)
  {
    |prefix| <= |s| && s[..|prefix|] == prefix
  }

  /** `t` is the first non-empty entry of `candidates`, or "" when every
      entry is empty: the fallback order the relay uses to pick a reply text. */
  predicate IsFirstNonEmpty(candidates: seq<string>, t: string)
  {
    || (t == "" && forall i :: 0 <= i < |candidates| ==> candidates[i] == "")
    || (t != "" && exists k :: 0 <= k < |candidates| && candidates[k] == t &&
                               forall j :: 0 <= j < k ==> candidates[j] == "")
  }
}

=== FILE: redis_store.dfy ===
/** The key-value store: one list per thread key, each entry the encoded text
    of a Message. Save pushes on the tail; read fetches the whole list and
    decodes every entry. A key that another client set to a value of some
    other type makes both commands fail. */
module RedisStore {
  import opened Wrappers
  import opened Messages
  import MessageCodec
  import Sequences

  /** Why a call on the key-value service failed. */
  datatype StoreError =
    | Unavailable            // the command did not reach the service
    | WrongType              // the key holds a value that is not a list
    | Undecodable(index: nat) // the entry at `index` is not an encoded Message

  /** The value under a key: a list, or a value of another type (a string,
      hash, set, ...) whose contents no list command can touch. */
  datatype Value = ListValue(entries: seq<string>) | OtherValue

  /** The service: the value stored under each key, and whether commands
      reach it. */
  datatype Redis = Redis(store: map<string, Value>, online: bool)

  /** `key` holds a value that is not a list. */
  predicate HoldsOther(r: Redis, key: string)
  {
    key in r.store && r.store[key].OtherValue?
  }

  /** The list under `key`; a key never pushed to reads as the empty list. */
  function List(r: Redis, key: string): seq<string>
  {
    if key in r.store && r.store[key].ListValue? then r.store[key].entries else []
  }

  /** SaveMessage: encode the record and push it on the tail of the thread's
      list, creating the list when the key is missing. Encoding a record of
      two strings cannot fail, so the errors are an unreachable service and a
      key holding a value of another type; either leaves the store as it
      was. */
  function SaveMessage(r: Redis, thread: string, msg: Message): (res: Result<Redis, StoreError>)
    ensures res.Ok? <==> r.online && !HoldsOther(r, thread)
    ensures res.Err? ==> res.error == if r.online then WrongType else Unavailable
    ensures res.Ok? ==> res.value.online && !HoldsOther(res.value, thread)
    ensures res.Ok? ==> List(res.value, thread) == List(r, thread) + [MessageCodec.Encode(msg)]
    ensures res.Ok? ==>
      forall k :: k != thread ==> (k in res.value.store <==> k in r.store)
    ensures res.Ok? ==>
      forall k :: k != thread && k in r.store ==> res.value.store[k] == r.store[k]
  {
    if !r.online then Err(Unavailable)
    else if HoldsOther(r, thread) then Err(WrongType)
    else
      var pushed := List(r, thread) + [MessageCodec.Encode(msg)];
      var r' := r.(store := r.store[thread := ListValue(pushed)]);
      assert List(r', thread) == pushed;
      Ok(r')
  }

  /** The decode loop: every entry must decode, and the first one that does
      not fails the whole read. */
  function DecodeAll(vals: seq<string>): (res: Result<seq<Message>, StoreError>)
    ensures res.Ok? <==> forall i :: 0 <= i < |vals| ==> MessageCodec.Decode(vals[i]).Some?
    ensures res.Ok? ==>
      && |res.value| == |vals|
      && forall i :: 0 <= i < |vals| ==> MessageCodec.Decode(vals[i]) == Some(res.value[i])
    ensures res.Err? ==>
      && res.error.Undecodable?
      && res.error.index < |vals|
      && MessageCodec.Decode(vals[res.error.index]).None?
      && forall j :: 0 <= j < res.error.index ==> MessageCodec.Decode(vals[j]).Some?
  {
    if vals == [] then Ok([])
    else match MessageCodec.Decode(vals[0])
      case None => Err(Undecodable(0))
      case Some(m) =>
        var tail := vals[1..];
        assert forall i :: 0 < i < |vals| ==> vals[i] == tail[i - 1];
        match DecodeAll(tail)
        case Ok(ms) =>
          var all := [m] + ms;
          assert forall i :: 0 < i < |all| ==> all[i] == ms[i - 1];
          Ok(all)
        case Err(e) =>
          assert vals[e.index + 1] == tail[e.index];
          Err(Undecodable(e.index + 1))
  }

  /** GetMessages: the full range of the thread's list, decoded in list order.
      The read succeeds exactly when the server is reachable, the key holds
      a list or nothing, and every stored text decodes; otherwise it
      reports the unreachable server, the key of another type, or the first
      text that does not decode. */
  function GetMessages(r: Redis, thread: string): (res: Result<seq<Message>, StoreError>)
    ensures !r.online ==> res == Err(Unavailable)
    ensures r.online && HoldsOther(r, thread) ==> res == Err(WrongType)
    ensures res.Ok? <==>
      && r.online
      && !HoldsOther(r, thread)
      && forall i :: 0 <= i < |List(r, thread)| ==> MessageCodec.Decode(List(r, thread)[i]).Some?
    ensures r.online && !HoldsOther(r, thread) && res.Err? ==>
      && res.error.Undecodable?
      && res.error.index < |List(r, thread)|
      && MessageCodec.Decode(List(r, thread)[res.error.index]).None?
      && forall j :: 0 <= j < res.error.index ==> MessageCodec.Decode(List(r, thread)[j]).Some?
    ensures res.Ok? ==> |res.value| == |List(r, thread)|
    ensures res.Ok? ==>
      forall i :: 0 <= i < |res.value| ==> MessageCodec.Decode(List(r, thread)[i]) == Some(res.value[i])
  {
    if !r.online then Err(Unavailable)
    else if HoldsOther(r, thread) then Err(WrongType)
    else DecodeAll(List(r, thread))
  }

  /** The texts Encode writes for each message in turn. */
  function EncodeAll(ms: seq<Message>): (vals: seq<string>)
    ensures |vals| == |ms|
    ensures forall i :: 0 <= i < |ms| ==> vals[i] == MessageCodec.Encode(ms[i])
  {
    seq(|ms|, i requires 0 <= i < |ms| => MessageCodec.Encode(ms[i]))
  }

  /** A list written only by SaveMessage decodes to the records saved. */
  lemma DecodeEncoded(ms: seq<Message>)
    ensures DecodeAll(EncodeAll(ms)) == Ok(ms)
  {
    var vals := EncodeAll(ms);
    forall i | 0 <= i < |ms| ensures MessageCodec.Decode(vals[i]) == Some(ms[i]) {
      MessageCodec.RoundTrip(ms[i]);
    }
    var res := DecodeAll(vals);
    assert res.value == ms;
  }

  /** A list of one encoded record decodes to that record. */
  lemma DecodeSingle(m: Message)
    ensures DecodeAll([MessageCodec.Encode(m)]) == Ok([m])
  {
    MessageCodec.RoundTrip(m);
    var vals := [MessageCodec.Encode(m)];
    assert vals[1..] == [];
    assert MessageCodec.Decode(vals[0]) == Some(m);
    assert DecodeAll(vals[1..]) == Ok([]);
    assert [m] + [] == [m];
  }

  /** Pushing an encoded record appends it to a successful decode, and keeps
      the same error otherwise. */
  lemma {:induction false} DecodeAppend(vals: seq<string>, m: Message)
    ensures DecodeAll(vals).Ok? ==> DecodeAll(vals + [MessageCodec.Encode(m)]) == Ok(DecodeAll(vals).value + [m])
    ensures DecodeAll(vals).Err? ==> DecodeAll(vals + [MessageCodec.Encode(m)]) == DecodeAll(vals)
    decreases |vals|
  {
    var ext := vals + [MessageCodec.Encode(m)];
    if vals == [] {
      DecodeSingle(m);
      assert ext == [MessageCodec.Encode(m)];
      assert DecodeAll(vals) == Ok([]);
      assert [] + [m] == [m];
    } else {
      var tail := vals[1..];
      assert ext[0] == vals[0];
      assert ext[1..] == tail + [MessageCodec.Encode(m)];
      DecodeAppend(tail, m);
      match MessageCodec.Decode(vals[0])
      case None =>
        assert DecodeAll(vals) == Err(Undecodable(0));
        assert DecodeAll(ext) == Err(Undecodable(0));
      case Some(m0) =>
        match DecodeAll(tail)
        case Err(e) =>
          assert DecodeAll(ext[1..]) == Err(e);
          assert DecodeAll(vals) == Err(Undecodable(e.index + 1));
          assert DecodeAll(ext) == Err(Undecodable(e.index + 1));
        case Ok(ms) =>
          assert DecodeAll(ext[1..]) == Ok(ms + [m]);
          assert DecodeAll(vals) == Ok([m0] + ms);
          assert DecodeAll(ext) == Ok([m0] + (ms + [m]));
          Sequences.Associative([m0], ms, [m]);
    }
  }

  /** Round trip through the store: after a save, reading the thread gives
      the previous read with the saved record, role and content intact,
      appended. */
  lemma SaveThenGet(r: Redis, thread: string, msg: Message)
    requires r.online && !HoldsOther(r, thread)
    ensures GetMessages(r, thread).Ok? ==>
      GetMessages(SaveMessage(r, thread, msg).value, thread) == Ok(GetMessages(r, thread).value + [msg])
    ensures GetMessages(r, thread).Err? ==>
      GetMessages(SaveMessage(r, thread, msg).value, thread) == GetMessages(r, thread)
  {
    DecodeAppend(List(r, thread), msg);
  }

  /** Saving under one key leaves every other key's read unchanged. */
  lemma SaveIsolation(r: Redis, a: string, b: string, msg: Message)
    requires r.online && !HoldsOther(r, a)
    requires a != b
    ensures GetMessages(SaveMessage(r, a, msg).value, b) == GetMessages(r, b)
  {
  }

  /** A thread never saved to reads as the empty sequence. */
  lemma MissingKeyReadsEmpty(r: Redis, thread: string)
    requires r.online
    requires thread !in r.store
    ensures GetMessages(r, thread) == Ok([])
  {
  }

  /** A thread whose list was written only by SaveMessage reads back exactly
      the records saved, in save order. */
  lemma SavedRecordsReadBack(r: Redis, thread: string, ms: seq<Message>)
    requires r.online && !HoldsOther(r, thread)
    requires List(r, thread) == EncodeAll(ms)
    ensures GetMessages(r, thread) == Ok(ms)
  {
    DecodeEncoded(ms);
  }

  /** A thread key that another client set to a value of some other type
      can be neither saved to nor read, and a failed push leaves it as it
      was. */
  lemma WrongTypeKeyFails(r: Redis, thread: string, msg: Message)
    requires r.online && HoldsOther(r, thread)
    ensures SaveMessage(r, thread, msg) == Err(WrongType)
    ensures GetMessages(r, thread) == Err(WrongType)
  {
  }
}

=== FILE: responses.dfy ===
/** The conversation endpoint: persist the caller's turns, rebuild the
    thread, forward it upstream with the caller's headers, relay the reply
    (streamed or buffered) and persist the assistant's text. */
module Responses {
  import opened Wrappers
  import opened Messages
  import opened SqliteStore
  import Assembly
  import Forwarder
  import StreamRelay
  import BufferedRelay
  import Sequences

  const CompletionsPath: string := "/v1/chat/completions"
  const JsonContentType: string := "application/json"

  const StatusBadRequest: nat := 400
  const StatusMethodNotAllowed: nat := 405
  const StatusInternalServerError: nat := 500
  const StatusBadGateway: nat := 502

  /** The decoded request body. An absent `thread_id` or `instructions`
      decodes as "". */
  datatype ConvRequest = ConvRequest(
    threadId: string,
    model: string,
    instructions: string,
    input: seq<string>,
    stream: bool)

  /** An inbound call: its HTTP method, its headers, the order in which
      ranging over the header map visits their names (the runtime leaves it
      unspecified), and its body as decoded (None when the body is not a
      valid request). */
  datatype Inbound = Inbound(
    httpMethod: string,
    headers: Forwarder.Headers,
    headerOrder: seq<string>,
    body: Option<ConvRequest>)

  /** The request sent upstream. */
  datatype UpstreamRequest = UpstreamRequest(
    path: string,
    model: string,
    messages: seq<Message>,
    stream: bool,
    headers: Forwarder.Headers)

  /** The upstream's answer: its Content-Type and its body. */
  datatype Reply = Reply(contentType: string, body: string)

  /** What the caller receives: an error status, or a relayed body (status
      200) with its content type. */
  datatype Response = Failed(status: nat) | Relayed(contentType: string, body: string)

  /** Everything outside the handler: the configured key, the id generator's
      next id, the upstream call (None: transport failure), and the JSON
      decoders for stream events and completion bodies. */
  datatype Env = Env(
    apiKey: string,
    freshId: string,
    upstream: UpstreamRequest -> Option<Reply>,
    decodeEvent: StreamRelay.EventDecoder,
    decodeCompletion: BufferedRelay.CompletionDecoder)

  /** One call's effect: the database afterwards, the upstream request if one
      was sent, and the caller's response. */
  datatype Exchange = Exchange(db: Db, forwarded: Option<UpstreamRequest>, response: Response)

  /** The inputs fit: there are none, or the database is reachable and has
      room for all of them. */
  predicate Fits(db: Db, n: nat)
  {
    n == 0 || (db.online && (db.freeRows.None? || db.freeRows.value >= n))
  }

  /** The input loop: save each input in order, stopping at the first
      failure; saves before the failure stay in the table. The loop
      succeeds exactly when the inputs fit. */
  function SaveInputs(db: Db, thread: string, inputs: seq<string>): (w: Write)
    ensures w.err.None? <==> Fits(db, |inputs|)
    ensures w.err.None? ==> Column(w.db, thread) == Column(db, thread) + Somes(inputs)
    ensures w.err.Some? ==>
      Column(db, thread) <= Column(w.db, thread) < Column(db, thread) + Somes(inputs)
    ensures forall t :: t != thread ==> Column(w.db, t) == Column(db, t)
    ensures w.db.online == db.online
    ensures Valid(db) ==> Valid(w.db)
    ensures db.online && db.freeRows.None? ==> w.err.None? && w.db.freeRows.None?
    decreases |inputs|
  {
    if inputs == [] then
      assert Somes(inputs) == [];
      Write(db, None)
    else
      var w1 := SaveMessage(db, thread, inputs[0]);
      if w1.err.Some? then w1
      else
        var w := SaveInputs(w1.db, thread, inputs[1..]);
        SaveInputsStep(db, thread, inputs, w);
        w
  }

  /** One turn of the input loop: a successful first save followed by the
      rest of the loop gives the loop's promises for the whole input. */
  lemma SaveInputsStep(db: Db, thread: string, inputs: seq<string>, w: Write)
    requires inputs != [] && Accepts(db)
    requires var w1 := SaveMessage(db, thread, inputs[0]);
      && (w.err.None? ==> Column(w.db, thread) == Column(w1.db, thread) + Somes(inputs[1..]))
      && (w.err.Some? ==> Column(w1.db, thread) <= Column(w.db, thread) < Column(w1.db, thread) + Somes(inputs[1..]))
      && (forall t :: t != thread ==> Column(w.db, t) == Column(w1.db, t))
    ensures w.err.None? ==> Column(w.db, thread) == Column(db, thread) + Somes(inputs)
    ensures w.err.Some? ==>
      Column(db, thread) <= Column(w.db, thread) < Column(db, thread) + Somes(inputs)
    ensures forall t :: t != thread ==> Column(w.db, t) == Column(db, t)
  {
    var w1 := SaveMessage(db, thread, inputs[0]);
    SaveAppendsToColumn(db, thread, inputs[0]);
    SaveIsolationAll(db, thread, inputs[0]);
    SomesCons(inputs);
    ExtendStep(Column(db, thread), Some(inputs[0]), Somes(inputs[1..]),
               Column(w1.db, thread), Column(w.db, thread), w.err.None?);
  }

  /** Sequence bookkeeping for one loop turn: `mid` is `before` with `x`
      appended, and `final` is `mid` extended by all of `rest`, or by a
      proper prefix of it. */
  lemma ExtendStep<T>(before: seq<T>, x: T, rest: seq<T>, mid: seq<T>, final: seq<T>, complete: bool)
    requires mid == before + [x]
    requires complete ==> final == mid + rest
    requires !complete ==> mid <= final < mid + rest
    ensures complete ==> final == before + ([x] + rest)
    ensures !complete ==> before <= final < before + ([x] + rest)
  {
    assert mid + rest == before + ([x] + rest);
  }

  /** SaveIsolation for every other thread at once. */
  lemma SaveIsolationAll(db: Db, thread: string, msg: string)
    ensures forall t :: t != thread ==> Column(SaveMessage(db, thread, msg).db, t) == Column(db, t)
  {
    forall t | t != thread ensures Column(SaveMessage(db, thread, msg).db, t) == Column(db, t) {
      SaveIsolation(db, thread, t, msg);
    }
  }

  /** The persistence of the assistant's text after the relay: only a
      non-empty text is saved, and a failed save is only logged. */
  function SaveReply(db: Db, thread: string, text: string): (db': Db)
    ensures text == "" || !Accepts(db) ==> db' == db
    ensures text != "" && Accepts(db) ==> Column(db', thread) == Column(db, thread) + [Some(text)]
    ensures forall t :: t != thread ==> Column(db', t) == Column(db, t)
    ensures Valid(db) ==> Valid(db')
  {
    if text == "" then db
    else
      var w := SaveMessage(db, thread, text);
      if w.err.None? then
        SaveAppendsToColumn(db, thread, text);
        SaveIsolationAll(db, thread, text);
        w.db
      else db
  }

  /** The thread a request with a decoded body runs on. */
  function RequestThread(conv: ConvRequest, env: Env): string
    requires env.freshId != ""
  {
    Assembly.ThreadId(conv.threadId, env.freshId)
  }

  /** The upstream request built from the reloaded history: a POST to the
      completions path carrying the caller's model and stream flag, the
      instructions as a leading system message when there are any, every
      history entry in order under its positional role, and the caller's
      headers with the credential where the first Authorization value is
      empty or absent. */
  function BuildUpstream(conv: ConvRequest, history: seq<string>, inbound: Forwarder.Headers,
                         order: seq<string>, apiKey: string): (up: UpstreamRequest)
    ensures up.path == CompletionsPath && up.model == conv.model && up.stream == conv.stream
    ensures |up.messages| == |history| + (if conv.instructions != "" then 1 else 0)
    ensures conv.instructions != "" <==>
      |up.messages| > 0 && up.messages[0] == Message(SystemRole, conv.instructions)
    ensures var offset := if conv.instructions != "" then 1 else 0;
      forall i :: 0 <= i < |history| ==> up.messages[offset + i] == Message(Assembly.PositionalRole(i), history[i])
    ensures Forwarder.ListsKeys(order, inbound) ==>
      forall k :: k != Forwarder.AuthorizationHeader ==>
        && (k in up.headers <==> k in inbound && inbound[k] != [])
        && (k in up.headers ==> up.headers[k] == inbound[k])
    ensures Forwarder.ListsKeys(order, inbound) ==>
      Forwarder.Get(up.headers, Forwarder.AuthorizationHeader) ==
        if Forwarder.InjectsCredential(inbound, apiKey) then Forwarder.BearerPrefix + apiKey
        else Forwarder.Get(inbound, Forwarder.AuthorizationHeader)
  {
    UpstreamRequest(CompletionsPath, conv.model, Assembly.Assemble(conv.instructions, history),
                    conv.stream, Forwarder.ForwardHeaders(inbound, order, apiKey))
  }

  /** The assistant text a relay extracts from the reply: the contributions
      of the stream's lines before the sentinel, or the buffered body's
      first non-empty choice text. */
  function AssistantText(stream: bool, reply: Reply, env: Env): string
  {
    if stream then
      var lines := StreamRelay.Lines(reply.body);
      StreamRelay.Accumulate(lines[..StreamRelay.Cutoff(lines)], env.decodeEvent)
    else BufferedRelay.ReplyText(env.decodeCompletion(reply.body))
  }

  /** The relay once the upstream answered: stream mode echoes the scanned
      lines and saves the accumulated text; buffered mode returns the raw
      body as JSON and saves the extracted text. */
  function RelayReply(db: Db, thread: string, stream: bool, reply: Reply, env: Env): (out: (Db, Response))
    ensures stream ==>
      out.1 == Relayed(reply.contentType, StreamRelay.Echo(StreamRelay.ReadLines(StreamRelay.Lines(reply.body))))
    ensures !stream ==> out.1 == Relayed(JsonContentType, reply.body)
    ensures var text := AssistantText(stream, reply, env);
      Accepts(db) ==> Column(out.0, thread) == Column(db, thread) + (if text != "" then [Some(text)] else [])
    ensures !Accepts(db) ==> out.0 == db
    ensures forall t :: t != thread ==> Column(out.0, t) == Column(db, t)
    ensures Valid(db) ==> Valid(out.0)
  {
    if stream then
      var relay := StreamRelay.RelayLines(StreamRelay.Lines(reply.body), env.decodeEvent);
      (SaveReply(db, thread, relay.assistant), Relayed(reply.contentType, relay.echoed))
    else
      var text := BufferedRelay.ReplyText(env.decodeCompletion(reply.body));
      (SaveReply(db, thread, text), Relayed(JsonContentType, reply.body))
  }

  /** handleResponses. */
  function Handle(db: Db, req: Inbound, env: Env): (x: Exchange)
    requires env.freshId != ""
    requires Forwarder.ListsKeys(req.headerOrder, req.headers)
    ensures req.httpMethod != "POST" ==> x == Exchange(db, None, Failed(StatusMethodNotAllowed))
    ensures req.httpMethod == "POST" && req.body.None? ==> x == Exchange(db, None, Failed(StatusBadRequest))
    ensures x.forwarded.None? ==> x.response.Failed?
    ensures x.response.Relayed? <==> x.forwarded.Some? && env.upstream(x.forwarded.value).Some?
    ensures x.forwarded.Some? ==>
      && req.body.Some?
      && x.forwarded.value.path == CompletionsPath
      && x.forwarded.value.model == req.body.value.model
      && x.forwarded.value.stream == req.body.value.stream
      && x.forwarded.value.headers == Forwarder.ForwardHeaders(req.headers, req.headerOrder, env.apiKey)
    ensures req.body.Some? ==>
      forall t :: t != RequestThread(req.body.value, env) ==> Column(x.db, t) == Column(db, t)
    ensures x.db.online == db.online
    ensures Valid(db) ==> Valid(x.db)
  {
    if req.httpMethod != "POST" then Exchange(db, None, Failed(StatusMethodNotAllowed))
    else if req.body.None? then Exchange(db, None, Failed(StatusBadRequest))
    else
      var conv := req.body.value;
      var thread := RequestThread(conv, env);
      var saved := SaveInputs(db, thread, conv.input);
      if saved.err.Some? then Exchange(saved.db, None, Failed(StatusInternalServerError))
      else match GetMessages(saved.db, thread)
        case Err(_) => Exchange(saved.db, None, Failed(StatusInternalServerError))
        case Ok(history) =>
          var up := BuildUpstream(conv, history, req.headers, req.headerOrder, env.apiKey);
          match env.upstream(up)
          case None => Exchange(saved.db, Some(up), Failed(StatusBadGateway))
          case Some(reply) =>
            var (db', response) := RelayReply(saved.db, thread, conv.stream, reply, env);
            Exchange(db', Some(up), response)
  }

  /** The caller's headers as forwarded: every header other than
      Authorization is copied unchanged, and the first Authorization value is
      the bearer credential when a key is configured and the caller's first
      value is empty or absent, and the caller's first value otherwise. */
  lemma ForwardedHeaders(db: Db, req: Inbound, env: Env)
    requires env.freshId != "" && Forwarder.ListsKeys(req.headerOrder, req.headers)
    ensures var x := Handle(db, req, env);
      x.forwarded.Some? ==>
        var h := x.forwarded.value.headers;
        forall k :: k != Forwarder.AuthorizationHeader ==>
          && (k in h <==> k in req.headers && req.headers[k] != [])
          && (k in h ==> h[k] == req.headers[k])
    ensures var x := Handle(db, req, env);
      x.forwarded.Some? ==>
        Forwarder.Get(x.forwarded.value.headers, Forwarder.AuthorizationHeader) ==
          if Forwarder.InjectsCredential(req.headers, env.apiKey) then Forwarder.BearerPrefix + env.apiKey
          else Forwarder.Get(req.headers, Forwarder.AuthorizationHeader)
  {
  }

  /** Every save succeeds: statements reach the file and it has room. */
  predicate Healthy(db: Db)
  {
    db.online && db.freeRows.None?
  }

  /** The inputs are saved before the history is read: a request goes
      upstream exactly when the database is reachable, has room for every
      input, and the thread's stored contents are all readable. The list
      sent is then assembled from them followed by the inputs, in request
      order. Otherwise the caller gets 500 and nothing is sent. */
  lemma ForwardedHistory(db: Db, req: Inbound, env: Env)
    requires env.freshId != "" && Forwarder.ListsKeys(req.headerOrder, req.headers)
    requires req.httpMethod == "POST" && req.body.Some?
    ensures var conv := req.body.value;
      Handle(db, req, env).forwarded.Some? <==>
        && db.online
        && (db.freeRows.None? || db.freeRows.value >= |conv.input|)
        && AllPresent(Column(db, RequestThread(conv, env)))
    ensures var x := Handle(db, req, env);
      var conv := req.body.value;
      var thread := RequestThread(conv, env);
      x.forwarded.Some? ==>
        && AllPresent(Column(db, thread))
        && x.forwarded.value.messages == Assembly.Assemble(conv.instructions, Strings(Column(db, thread)) + conv.input)
    ensures Handle(db, req, env).forwarded.None? ==>
      Handle(db, req, env).response == Failed(StatusInternalServerError)
  {
    var conv := req.body.value;
    var thread := RequestThread(conv, env);
    var saved := SaveInputs(db, thread, conv.input);
    var x := Handle(db, req, env);
    SavedThenRead(db, thread, conv.input);
    if saved.err.Some? {
      assert x.forwarded.None? && x.response == Failed(StatusInternalServerError);
      assert !Fits(db, |conv.input|);
    } else if GetMessages(saved.db, thread).Err? {
      assert x.forwarded.None? && x.response == Failed(StatusInternalServerError);
    } else {
      var history := GetMessages(saved.db, thread).value;
      var up := BuildUpstream(conv, history, req.headers, req.headerOrder, env.apiKey);
      assert x.forwarded == Some(up);
      assert up.messages == Assembly.Assemble(conv.instructions, Strings(Column(db, thread)) + conv.input);
    }
  }

  /** The input loop followed by the read: after a successful loop, the read
      succeeds exactly when the database is reachable and the thread's old
      contents hold no NULL, and it returns them followed by the inputs. */
  lemma SavedThenRead(db: Db, thread: string, inputs: seq<string>)
    ensures var saved := SaveInputs(db, thread, inputs);
      saved.err.None? ==>
        && (GetMessages(saved.db, thread).Ok? <==> db.online && AllPresent(Column(db, thread)))
        && (GetMessages(saved.db, thread).Ok? ==>
              GetMessages(saved.db, thread).value == Strings(Column(db, thread)) + inputs)
  {
    var saved := SaveInputs(db, thread, inputs);
    if saved.err.None? {
      ReadOfColumn(saved.db, thread);
      var before := Column(db, thread);
      assert Column(saved.db, thread) == before + Somes(inputs);
      if AllPresent(Column(saved.db, thread)) {
        forall i | 0 <= i < |before| ensures before[i].Some? {
          assert Column(saved.db, thread)[i] == before[i];
        }
      }
      if AllPresent(before) {
        StringsConcat(before, inputs);
      }
    }
  }

  /** On a healthy database whose thread holds no NULL content, a valid POST
      always reaches the upstream. */
  lemma HealthyForwards(db: Db, req: Inbound, env: Env)
    requires env.freshId != "" && Forwarder.ListsKeys(req.headerOrder, req.headers)
    requires req.httpMethod == "POST" && req.body.Some?
    requires Healthy(db)
    requires AllPresent(Column(db, RequestThread(req.body.value, env)))
    ensures Handle(db, req, env).forwarded.Some?
  {
    var conv := req.body.value;
    var thread := RequestThread(conv, env);
    var saved := SaveInputs(db, thread, conv.input);
    ReadOfColumn(saved.db, thread);
    StringsConcat(Column(db, thread), conv.input);
  }

  /** A relayed call went the whole way: every input was saved, the history
      read back, the request built from it went upstream, and the response
      and final table are the relay's. */
  lemma RelayedPath(db: Db, req: Inbound, env: Env)
    requires env.freshId != "" && Forwarder.ListsKeys(req.headerOrder, req.headers)
    requires req.httpMethod == "POST" && req.body.Some?
    ensures var x := Handle(db, req, env);
      var conv := req.body.value;
      var thread := RequestThread(conv, env);
      var saved := SaveInputs(db, thread, conv.input);
      x.response.Relayed? ==>
        && saved.err.None?
        && GetMessages(saved.db, thread).Ok?
        && x.forwarded.Some?
        && (x.db, x.response) == RelayReply(saved.db, thread, conv.stream, env.upstream(x.forwarded.value).value, env)
  {
  }

  /** The relay only appends to the thread. */
  lemma RelayOnlyAppends(db: Db, thread: string, stream: bool, reply: Reply, env: Env)
    ensures Column(db, thread) <= Column(RelayReply(db, thread, stream, reply, env).0, thread)
  {
  }

  /** A failed valid POST (500 or 502) rolls nothing back: the database is
      left exactly as the input loop left it, so the inputs saved before the
      failure stay in the thread. In every case the thread only grows. */
  lemma FailedCallKeepsSavedInputs(db: Db, req: Inbound, env: Env)
    requires env.freshId != "" && Forwarder.ListsKeys(req.headerOrder, req.headers)
    requires req.httpMethod == "POST" && req.body.Some?
    ensures var x := Handle(db, req, env);
      var thread := RequestThread(req.body.value, env);
      && Column(db, thread) <= Column(x.db, thread)
      && (!x.response.Relayed? ==> x.db == SaveInputs(db, thread, req.body.value.input).db)
  {
    var conv := req.body.value;
    var thread := RequestThread(conv, env);
    var saved := SaveInputs(db, thread, conv.input);
    var x := Handle(db, req, env);
    assert Column(db, thread) <= Column(saved.db, thread);
    if saved.err.Some? {
      assert x.db == saved.db;
    } else if GetMessages(saved.db, thread).Err? {
      assert x.db == saved.db;
    } else {
      var up := BuildUpstream(conv, GetMessages(saved.db, thread).value, req.headers, req.headerOrder, env.apiKey);
      assert x.forwarded == Some(up);
      if env.upstream(up).None? {
        assert x.db == saved.db;
      } else {
        var out := RelayReply(saved.db, thread, conv.stream, env.upstream(up).value, env);
        RelayOnlyAppends(saved.db, thread, conv.stream, env.upstream(up).value, env);
        assert x.db == out.0 && x.response.Relayed?;
      }
    }
  }

  /** Buffered mode: the caller always receives the upstream body unchanged,
      labelled as JSON; on a healthy database the thread ends with the inputs
      followed by the extracted text, which is saved only when non-empty. */
  lemma BufferedRelayed(db: Db, req: Inbound, env: Env)
    requires env.freshId != "" && Forwarder.ListsKeys(req.headerOrder, req.headers)
    requires req.httpMethod == "POST" && req.body.Some? && !req.body.value.stream
    ensures var x := Handle(db, req, env);
      x.response.Relayed? ==> x.response == Relayed(JsonContentType, env.upstream(x.forwarded.value).value.body)
    ensures var x := Handle(db, req, env);
      var thread := RequestThread(req.body.value, env);
      x.response.Relayed? && Healthy(db) ==>
        var text := BufferedRelay.ReplyText(env.decodeCompletion(env.upstream(x.forwarded.value).value.body));
        Column(x.db, thread) == Column(db, thread) + Somes(req.body.value.input) + (if text != "" then [Some(text)] else [])
  {
    RelayedPath(db, req, env);
    var x := Handle(db, req, env);
    if x.response.Relayed? {
      var conv := req.body.value;
      var thread := RequestThread(conv, env);
      var saved := SaveInputs(db, thread, conv.input);
      var reply := env.upstream(x.forwarded.value).value;
      assert (x.db, x.response) == RelayReply(saved.db, thread, conv.stream, reply, env);
    }
  }

  /** Stream mode: the caller receives every scanned line up to and
      including the first sentinel, each newline-terminated, under the
      upstream's content type; on a healthy database the thread ends with the
      inputs followed by the accumulated text, saved once and only when
      non-empty. */
  lemma StreamRelayed(db: Db, req: Inbound, env: Env)
    requires env.freshId != "" && Forwarder.ListsKeys(req.headerOrder, req.headers)
    requires req.httpMethod == "POST" && req.body.Some? && req.body.value.stream
    ensures var x := Handle(db, req, env);
      x.response.Relayed? ==>
        var reply := env.upstream(x.forwarded.value).value;
        var lines := StreamRelay.Lines(reply.body);
        x.response == Relayed(reply.contentType, StreamRelay.Echo(StreamRelay.ReadLines(lines)))
    ensures var x := Handle(db, req, env);
      var thread := RequestThread(req.body.value, env);
      x.response.Relayed? && Healthy(db) ==>
        var lines := StreamRelay.Lines(env.upstream(x.forwarded.value).value.body);
        var acc := StreamRelay.Accumulate(lines[..StreamRelay.Cutoff(lines)], env.decodeEvent);
        Column(x.db, thread) == Column(db, thread) + Somes(req.body.value.input) + (if acc != "" then [Some(acc)] else [])
  {
    RelayedPath(db, req, env);
    var x := Handle(db, req, env);
    if x.response.Relayed? {
      var conv := req.body.value;
      var thread := RequestThread(conv, env);
      var saved := SaveInputs(db, thread, conv.input);
      var reply := env.upstream(x.forwarded.value).value;
      assert (x.db, x.response) == RelayReply(saved.db, thread, conv.stream, reply, env);
    }
  }

  /** Stream mode passes a well-formed upstream body through byte for byte:
      with no carriage return, no sentinel line and a final newline, the
      caller receives exactly the upstream body. */
  lemma StreamEchoVerbatim(db: Db, req: Inbound, env: Env)
    requires env.freshId != "" && Forwarder.ListsKeys(req.headerOrder, req.headers)
    requires req.httpMethod == "POST" && req.body.Some? && req.body.value.stream
    ensures var x := Handle(db, req, env);
      x.response.Relayed? ==>
        var body := env.upstream(x.forwarded.value).value.body;
        (&& StreamRelay.NoCR(body)
         && (body == [] || body[|body| - 1] == '\n')
         && StreamRelay.Cutoff(StreamRelay.Lines(body)) == |StreamRelay.Lines(body)|)
        ==> x.response.body == body
  {
    StreamRelayed(db, req, env);
    var x := Handle(db, req, env);
    if x.response.Relayed? {
      var body := env.upstream(x.forwarded.value).value.body;
      if StreamRelay.NoCR(body) {
        StreamRelay.EchoOfLines(body);
      }
    }
  }

  /** One more exchange appends its input and reply to the history. */
  lemma {:induction false} HistoryAppend(turns: seq<Assembly.Turn>, turn: Assembly.Turn)
    ensures Assembly.History(turns + [turn]) == Assembly.History(turns) + [turn.input, turn.reply]
    decreases |turns|
  {
    if turns == [] {
      assert turns + [turn] == [turn];
    } else {
      assert (turns + [turn])[1..] == turns[1..] + [turn];
      HistoryAppend(turns[1..], turn);
    }
  }

  /** Multi-turn conversations on a healthy database: when the thread holds
      one input and one reply per past exchange, a call with a single input
      sends every past input as user, every past reply as assistant and the
      new input as user. */
  lemma ConversationLabels(db: Db, req: Inbound, env: Env, past: seq<Assembly.Turn>)
    requires env.freshId != "" && Forwarder.ListsKeys(req.headerOrder, req.headers)
    requires req.httpMethod == "POST" && req.body.Some?
    requires |req.body.value.input| == 1
    requires Healthy(db)
    requires Column(db, RequestThread(req.body.value, env)) == Somes(Assembly.History(past))
    ensures Handle(db, req, env).forwarded.Some?
    ensures Assembly.LabelsTurns(Handle(db, req, env).forwarded.value.messages,
      if req.body.value.instructions != "" then 1 else 0, past, req.body.value.input[0])
  {
    var conv := req.body.value;
    var h := Assembly.History(past);
    StringsOfSomes(h);
    HealthyForwards(db, req, env);
    ForwardedHistory(db, req, env);
    assert conv.input == [conv.input[0]];
    Assembly.NextInputLabels(conv.instructions, past, conv.input[0]);
  }

  /** A stored history followed by one input and its reply is the history
      of the exchanges extended by that one. */
  lemma HistoryExtended(past: seq<Assembly.Turn>, input: string, text: string)
    ensures Somes(Assembly.History(past)) + Somes([input]) + [Some(text)] ==
      Somes(Assembly.History(past + [Assembly.Turn(input, text)]))
  {
    var h := Assembly.History(past);
    HistoryAppend(past, Assembly.Turn(input, text));
    SomesAppend(h, [input, text]);
    assert Somes([input, text]) == Somes([input]) + [Some(text)];
    Sequences.Associative(Somes(h), Somes([input]), [Some(text)]);
  }

  /** A completed buffered exchange on a healthy database leaves the thread
      holding the past exchanges followed by this one (its input, then its
      non-empty reply text), so the next call is labelled correctly too. */
  lemma ConversationPersists(db: Db, req: Inbound, env: Env, past: seq<Assembly.Turn>)
    requires env.freshId != "" && Forwarder.ListsKeys(req.headerOrder, req.headers)
    requires req.httpMethod == "POST" && req.body.Some?
    requires !req.body.value.stream && |req.body.value.input| == 1
    requires Healthy(db)
    requires Column(db, RequestThread(req.body.value, env)) == Somes(Assembly.History(past))
    ensures var x := Handle(db, req, env);
      var conv := req.body.value;
      x.response.Relayed? ==>
        var text := BufferedRelay.ReplyText(env.decodeCompletion(env.upstream(x.forwarded.value).value.body));
        text != "" ==>
          Column(x.db, RequestThread(conv, env)) ==
            Somes(Assembly.History(past + [Assembly.Turn(conv.input[0], text)]))
  {
    var conv := req.body.value;
    var x := Handle(db, req, env);
    if x.response.Relayed? {
      var text := BufferedRelay.ReplyText(env.decodeCompletion(env.upstream(x.forwarded.value).value.body));
      BufferedRelayed(db, req, env);
      if text != "" {
        assert conv.input == [conv.input[0]];
        HistoryExtended(past, conv.input[0], text);
      }
    }
  }

  /** A first call without a thread id on a healthy database: the call runs
      on the generated id, and when that id was never used, a later read of
      it returns exactly the caller's input followed by the reply text. */
  lemma NewThreadRoundTrip(db: Db, req: Inbound, env: Env)
    requires env.freshId != "" && Forwarder.ListsKeys(req.headerOrder, req.headers)
    requires req.httpMethod == "POST" && req.body.Some?
    requires req.body.value.threadId == "" && !req.body.value.stream && |req.body.value.input| == 1
    requires Healthy(db)
    requires forall i :: 0 <= i < |db.rows| ==> db.rows[i].thread != env.freshId
    ensures RequestThread(req.body.value, env) == env.freshId
    ensures var x := Handle(db, req, env);
      x.response.Relayed? ==>
        var text := BufferedRelay.ReplyText(env.decodeCompletion(env.upstream(x.forwarded.value).value.body));
        text != "" ==> GetMessages(x.db, env.freshId) == Ok([req.body.value.input[0], text])
  {
    var conv := req.body.value;
    UnsavedThreadReadsEmpty(db, env.freshId);
    ReadOfColumn(db, env.freshId);
    assert Column(db, env.freshId) == [];
    assert Assembly.History([]) == [];
    assert Somes([]) == [];
    ConversationPersists(db, req, env, []);
    var x := Handle(db, req, env);
    if x.response.Relayed? {
      var text := BufferedRelay.ReplyText(env.decodeCompletion(env.upstream(x.forwarded.value).value.body));
      if text != "" {
        var turn := Assembly.Turn(conv.input[0], text);
        assert [] + [turn] == [turn];
        assert [turn][1..] == [];
        assert Assembly.History([turn]) == [conv.input[0], text];
        assert Column(x.db, env.freshId) == Somes([conv.input[0], text]);
        ReadBackSomes(x.db, env.freshId, [conv.input[0], text]);
      }
    }
  }

  /** The same call with an empty reply text: nothing is saved for the
      reply, so the fresh thread reads back the input alone. */
  lemma NewThreadEmptyReply(db: Db, req: Inbound, env: Env)
    requires env.freshId != "" && Forwarder.ListsKeys(req.headerOrder, req.headers)
    requires req.httpMethod == "POST" && req.body.Some?
    requires req.body.value.threadId == "" && !req.body.value.stream && |req.body.value.input| == 1
    requires Healthy(db)
    requires forall i :: 0 <= i < |db.rows| ==> db.rows[i].thread != env.freshId
    ensures var x := Handle(db, req, env);
      x.response.Relayed? ==>
        var text := BufferedRelay.ReplyText(env.decodeCompletion(env.upstream(x.forwarded.value).value.body));
        text == "" ==> GetMessages(x.db, env.freshId) == Ok([req.body.value.input[0]])
  {
    var conv := req.body.value;
    UnsavedThreadReadsEmpty(db, env.freshId);
    ReadOfColumn(db, env.freshId);
    BufferedRelayed(db, req, env);
    var x := Handle(db, req, env);
    if x.response.Relayed? {
      var text := BufferedRelay.ReplyText(env.decodeCompletion(env.upstream(x.forwarded.value).value.body));
      if text == "" {
        assert RequestThread(conv, env) == env.freshId;
        assert conv.input == [conv.input[0]];
        assert Column(x.db, env.freshId) == Somes([conv.input[0]]);
        ReadBackSomes(x.db, env.freshId, [conv.input[0]]);
      }
    }
  }
}

=== FILE: sequences.dfy ===
/** Facts about sequence concatenation and slicing used by the proofs. */
module Sequences {

  /** Concatenation is associative. */
  lemma Associative<T>(a: seq<T>, b: seq<T>, c: seq<T>)
    ensures a + b + c == a + (b + c)
  {
  }

  /** Taking n + 1 elements of a non-empty sequence is its head followed by
      n elements of its tail. */
  lemma TakeCons<T>(s: seq<T>, n: nat)
    requires n < |s|
    ensures s[..n + 1] == [s[0]] + s[1..][..n]
  {
  }

  /** A sequence is the part before position i, the element at i, and the
      part after it. */
  lemma SplitAt<T>(s: seq<T>, i: nat)
    requires i < |s|
    ensures s == s[..i] + [s[i]] + s[i + 1..]
  {
  }
}

=== FILE: sqlite_store.dfy ===
/** The embedded relational store: one `messages` table whose rows carry an
    autoincrement id, a thread key and a bare content string. A thread's
    history is the content column of its rows, read back in id order. */
module SqliteStore {
  import opened Wrappers

  /** One row of the `messages` table. The content column has no NOT NULL
      constraint, so a row written by another client may hold SQL NULL
      (`None`). The created_at column plays no part in any read. */
  datatype Row = Row(id: nat, thread: string, content: Option<string>)

  /** Why a statement on the database failed. */
  datatype StoreError =
    | Unavailable   // the connection could not run the statement
    | Full          // the database file cannot take another row
    | NullContent   // a selected content is NULL and cannot be scanned into a string

  /** The database file: the table's rows in storage order, the id the
      autoincrement hands out next, whether statements reach the file at all,
      and how many more rows fit before the file is full (None: no limit). */
  datatype Db = Db(rows: seq<Row>, nextId: nat, online: bool, freeRows: Option<nat>)

  /** An insert's outcome: the database afterwards and the error, if any. */
  datatype Write = Write(db: Db, err: Option<StoreError>)

  /** The table is stored in increasing id order, and every id is below the
      next one the autoincrement will hand out. */
  ghost predicate Valid(db: Db)
  {
    && (forall i, j :: 0 <= i < j < |db.rows| ==> db.rows[i].id < db.rows[j].id)
    && (forall i :: 0 <= i < |db.rows| ==> db.rows[i].id < db.nextId)
  }

  /** An insert on `db` succeeds. */
  predicate Accepts(db: Db)
  {
    db.online && (db.freeRows.None? || db.freeRows.value > 0)
  }

  /** SaveMessage: insert one row (thread, content) with a fresh id. */
  function SaveMessage(db: Db, thread: string, msg: string): (w: Write)
    ensures w.err.None? <==> Accepts(db)
    ensures w.err.Some? ==> w.db == db
    ensures w.err.None? ==>
      && |w.db.rows| == |db.rows| + 1
      && w.db.rows[..|db.rows|] == db.rows
      && w.db.rows[|db.rows|].thread == thread
      && w.db.rows[|db.rows|].content == Some(msg)
      && w.db.online
    ensures Valid(db) ==> Valid(w.db)
  {
    if !db.online then Write(db, Some(Unavailable))
    else if db.freeRows.Some? && db.freeRows.value == 0 then Write(db, Some(Full))
    else
      var free := if db.freeRows.Some? then Some(db.freeRows.value - 1) else None;
      Write(Db(db.rows + [Row(db.nextId, thread, Some(msg))], db.nextId + 1, true, free), None)
  }

  /** The rows whose thread key is `thread`, kept in storage order. */
  function Select(rows: seq<Row>, thread: string): (sel: seq<Row>)
    ensures |sel| <= |rows|
    ensures forall i :: 0 <= i < |sel| ==> sel[i].thread == thread
  {
    if rows == [] then []
    else if rows[0].thread == thread then [rows[0]] + Select(rows[1..], thread)
    else Select(rows[1..], thread)
  }

  /** The selection holds exactly the thread's rows: each selected row is a
      row of the table, and each row of the thread is selected. */
  lemma {:induction false} SelectIsFilter(rows: seq<Row>, thread: string)
    ensures forall i :: 0 <= i < |Select(rows, thread)| ==> Select(rows, thread)[i] in rows
    ensures forall i :: 0 <= i < |rows| && rows[i].thread == thread ==> rows[i] in Select(rows, thread)
    decreases |rows|
  {
    if rows != [] {
      SelectIsFilter(rows[1..], thread);
      var rest := Select(rows[1..], thread);
      forall i | 0 <= i < |rows| && rows[i].thread == thread
        ensures rows[i] in Select(rows, thread)
      {
        if i > 0 { assert rows[1..][i - 1] == rows[i]; }
      }
    }
  }

  /** The content column of a thread's rows, NULLs included. */
  function Column(db: Db, thread: string): (c: seq<Option<string>>)
    ensures |c| == |Select(db.rows, thread)|
    ensures forall i :: 0 <= i < |c| ==> c[i] == Select(db.rows, thread)[i].content
  {
    var sel := Select(db.rows, thread);
    seq(|sel|, i requires 0 <= i < |sel| => sel[i].content)
  }

  /** The scan loop: every selected content must be a string; the first NULL
      aborts the whole read. */
  function ScanAll(sel: seq<Row>): (r: Result<seq<string>, StoreError>)
    ensures r.Ok? <==> forall i :: 0 <= i < |sel| ==> sel[i].content.Some?
    ensures r.Ok? ==> |r.value| == |sel| && forall i :: 0 <= i < |sel| ==> sel[i].content == Some(r.value[i])
    ensures r.Err? ==> r.error == NullContent
  {
    if sel == [] then Ok([])
    else match sel[0].content
      case None => Err(NullContent)
      case Some(c) =>
        match ScanAll(sel[1..])
        case Err(e) => Err(e)
        case Ok(cs) => Ok([c] + cs)
  }

  /** GetMessages: the thread's contents in id order, or an error and no list. */
  function GetMessages(db: Db, thread: string): (r: Result<seq<string>, StoreError>)
    ensures r.Ok? <==> db.online && forall i :: 0 <= i < |Column(db, thread)| ==> Column(db, thread)[i].Some?
    ensures r.Ok? ==>
      && |r.value| == |Column(db, thread)|
      && forall i :: 0 <= i < |r.value| ==> Column(db, thread)[i] == Some(r.value[i])
    ensures !db.online ==> r == Err(Unavailable)
    ensures db.online && r.Err? ==> r.error == NullContent
  {
    if !db.online then Err(Unavailable)
    else
      var sel := Select(db.rows, thread);
      var r := ScanAll(sel);
      assert forall i :: 0 <= i < |sel| ==> Column(db, thread)[i] == sel[i].content;
      r
  }

  /** The contents a successful read of `column` yields. */
  function Strings(column: seq<Option<string>>): seq<string>
    requires forall i :: 0 <= i < |column| ==> column[i].Some?
  {
    seq(|column|, i requires 0 <= i < |column| => column[i].value)
  }

  /** The column of a sequence of strings, all non-NULL. */
  function Somes(ms: seq<string>): (c: seq<Option<string>>)
    ensures |c| == |ms| && forall i :: 0 <= i < |ms| ==> c[i] == Some(ms[i])
  {
    seq(|ms|, i requires 0 <= i < |ms| => Some(ms[i]))
  }

  /** Selecting from a table with one more row appends that row exactly when
      it belongs to the thread. */
  lemma {:induction false} SelectAppend(rows: seq<Row>, row: Row, thread: string)
    ensures Select(rows + [row], thread) ==
            Select(rows, thread) + (if row.thread == thread then [row] else [])
    decreases |rows|
  {
    if rows == [] {
      assert rows + [row] == [row];
    } else {
      assert (rows + [row])[1..] == rows[1..] + [row];
      SelectAppend(rows[1..], row, thread);
    }
  }

  /** Read-your-writes on the column: after a successful save, the thread's
      column is the old column with the new content appended. */
  lemma SaveAppendsToColumn(db: Db, thread: string, msg: string)
    requires Accepts(db)
    ensures Column(SaveMessage(db, thread, msg).db, thread) == Column(db, thread) + [Some(msg)]
  {
    var w := SaveMessage(db, thread, msg);
    var row := Row(db.nextId, thread, Some(msg));
    assert w.db.rows == db.rows + [row];
    SelectAppend(db.rows, row, thread);
  }

  /** All entries of a column are non-NULL. */
  predicate AllPresent(column: seq<Option<string>>)
  {
    forall i :: 0 <= i < |column| ==> column[i].Some?
  }

  /** Extending an all-present column extends its strings. */
  lemma StringsAppend(column: seq<Option<string>>, msg: string)
    requires AllPresent(column)
    ensures AllPresent(column + [Some(msg)])
    ensures Strings(column + [Some(msg)]) == Strings(column) + [msg]
  {
    var c := column + [Some(msg)];
    assert forall i :: 0 <= i < |column| ==> c[i] == column[i];
  }

  /** A read is decided by the connection state and the thread's column alone. */
  lemma ReadOfColumn(db: Db, thread: string)
    ensures GetMessages(db, thread) ==
      if !db.online then Err(Unavailable)
      else if AllPresent(Column(db, thread)) then Ok(Strings(Column(db, thread)))
      else Err(NullContent)
  {
    var c := Column(db, thread);
    var r := GetMessages(db, thread);
    if r.Ok? {
      assert r.value == Strings(c);
    }
  }

  /** Somes of a non-empty sequence. */
  lemma SomesCons(ms: seq<string>)
    requires ms != []
    ensures Somes(ms) == [Some(ms[0])] + Somes(ms[1..])
  {
  }

  /** Somes distributes over concatenation. */
  lemma SomesAppend(a: seq<string>, b: seq<string>)
    ensures Somes(a + b) == Somes(a) + Somes(b)
  {
    assert forall i :: 0 <= i < |a| ==> (a + b)[i] == a[i];
    assert forall i :: |a| <= i < |a| + |b| ==> (a + b)[i] == b[i - |a|];
  }

  /** Reading a column extended by inputs returns the inputs last. */
  lemma StringsConcat(column: seq<Option<string>>, inputs: seq<string>)
    requires AllPresent(column)
    ensures AllPresent(column + Somes(inputs))
    ensures Strings(column + Somes(inputs)) == Strings(column) + inputs
  {
    var c := column + Somes(inputs);
    assert forall i :: 0 <= i < |column| ==> c[i] == column[i];
    assert forall i :: |column| <= i < |c| ==> c[i] == Some(inputs[i - |column|]);
  }

  /** Reading back a column written from strings gives the strings. */
  lemma StringsOfSomes(ms: seq<string>)
    ensures AllPresent(Somes(ms))
    ensures Strings(Somes(ms)) == ms
  {
  }

  /** A reachable thread whose column was written from strings reads them
      back. */
  lemma ReadBackSomes(db: Db, thread: string, ms: seq<string>)
    requires db.online && Column(db, thread) == Somes(ms)
    ensures GetMessages(db, thread) == Ok(ms)
  {
    ReadOfColumn(db, thread);
    StringsOfSomes(ms);
  }

  /** Read-your-writes: after a successful save, a read of the thread returns
      the previous read with `msg` appended, or the previous error. */
  lemma SaveThenRead(db: Db, thread: string, msg: string)
    requires Accepts(db)
    ensures GetMessages(db, thread).Ok? ==>
      GetMessages(SaveMessage(db, thread, msg).db, thread) == Ok(GetMessages(db, thread).value + [msg])
    ensures GetMessages(db, thread).Err? ==>
      GetMessages(SaveMessage(db, thread, msg).db, thread) == GetMessages(db, thread)
  {
    var w := SaveMessage(db, thread, msg);
    SaveAppendsToColumn(db, thread, msg);
    ReadOfColumn(db, thread);
    ReadOfColumn(w.db, thread);
    var before := Column(db, thread);
    var after := Column(w.db, thread);
    assert after == before + [Some(msg)];
    if AllPresent(before) {
      StringsAppend(before, msg);
    } else {
      var i :| 0 <= i < |before| && before[i].None?;
      assert after[i].None?;
    }
  }

  /** Saving under one thread leaves every other thread's rows, and so its
      column and its read, unchanged. */
  lemma SaveIsolation(db: Db, a: string, b: string, msg: string)
    requires a != b
    ensures Select(SaveMessage(db, a, msg).db.rows, b) == Select(db.rows, b)
    ensures Column(SaveMessage(db, a, msg).db, b) == Column(db, b)
    ensures SaveMessage(db, a, msg).db.online == db.online
    ensures GetMessages(SaveMessage(db, a, msg).db, b) == GetMessages(db, b)
  {
    var w := SaveMessage(db, a, msg);
    if w.err.None? {
      assert w.db.rows == db.rows + [Row(db.nextId, a, Some(msg))];
      SelectAppend(db.rows, Row(db.nextId, a, Some(msg)), b);
    }
  }

  /** No row of the thread means nothing is selected. */
  lemma {:induction false} SelectAbsentThread(rows: seq<Row>, thread: string)
    requires forall i :: 0 <= i < |rows| ==> rows[i].thread != thread
    ensures Select(rows, thread) == []
    decreases |rows|
  {
    if rows != [] {
      SelectAbsentThread(rows[1..], thread);
    }
  }

  /** A thread nothing was ever saved under reads as the empty sequence. */
  lemma UnsavedThreadReadsEmpty(db: Db, thread: string)
    requires db.online
    requires forall i :: 0 <= i < |db.rows| ==> db.rows[i].thread != thread
    ensures GetMessages(db, thread) == Ok([])
  {
    SelectAbsentThread(db.rows, thread);
  }

  /** The read is ordered by id: on a well-formed table the selected rows'
      ids strictly increase, so storage order is the query's `order by id`. */
  lemma {:induction false} ReadFollowsIdOrder(rows: seq<Row>, thread: string)
    requires forall i, j :: 0 <= i < j < |rows| ==> rows[i].id < rows[j].id
    ensures forall i, j :: 0 <= i < j < |Select(rows, thread)| ==>
      Select(rows, thread)[i].id < Select(rows, thread)[j].id
    decreases |rows|
  {
    if rows != [] {
      ReadFollowsIdOrder(rows[1..], thread);
      SelectIsFilter(rows[1..], thread);
      var rest := Select(rows[1..], thread);
      forall k | 0 <= k < |rest| ensures rows[0].id < rest[k].id {
        assert rest[k] in rows[1..];
        var j :| 0 <= j < |rows[1..]| && rows[1..][j] == rest[k];
        assert rows[j + 1] == rest[k];
      }
    }
  }
}

=== FILE: stream_relay.dfy ===
/** The streaming relay: a fold over the upstream's Server-Sent Events lines
    (section 9.2 of the WHATWG HTML Living Standard) that echoes each line to
    the caller and accumulates the assistant's text from the `data:` events,
    stopping at the `data: [DONE]` sentinel. */
module StreamRelay {
  import opened Wrappers
  import opened Messages
  import opened Sequences

  const DataPrefix: string := "data: "
  const DoneMarker: string := "[DONE]"

  /** The incremental fields of one choice's `delta` object. */
  datatype Delta = Delta(content: string, text: string)

  /** A decoded event payload: the `delta` of each entry of `choices`. */
  datatype Event = Event(choices: seq<Delta>)

  /** The JSON decoder applied to an event payload: None where decoding
      reports an error. */
  type EventDecoder = string -> Option<Event>

  /** A line that carries the `data: ` field prefix. */
  predicate IsDataLine(line: string)
  {
    StartsWith(line, DataPrefix)
  }

  /** The payload of a data line, prefix removed. */
  function Payload(line: string): string
    requires IsDataLine(line)
  {
    line[|DataPrefix|..]
  }

  /** The end-of-stream line. */
  predicate IsSentinel(line: string)
  {
    line == DataPrefix + DoneMarker
  }

  /** The sentinel test is the code's two-step test: a data line whose
      payload is the done marker. */
  lemma SentinelIsDonePayload(line: string)
    ensures IsSentinel(line) <==> IsDataLine(line) && Payload(line) == DoneMarker
  {
    if IsDataLine(line) && Payload(line) == DoneMarker {
      assert line == line[..|DataPrefix|] + line[|DataPrefix|..];
    }
  }

  /** The text a delta contributes: its content, or its text when the
      content is empty. */
  function DeltaText(d: Delta): (t: string)
    ensures IsFirstNonEmpty([d.content, d.text], t)
  {
    if d.content != "" then
      assert [d.content, d.text][0] == d.content;
      d.content
    else
      assert [d.content, d.text][1] == d.text;
      d.text
  }

  /** What one line before the sentinel adds to the accumulator: choice 0's
      delta text for a data line that decodes with at least one choice, and
      nothing for any other line. */
  function Contribution(line: string, decode: EventDecoder): (t: string)
    ensures !IsDataLine(line) ==> t == ""
    ensures IsDataLine(line) && decode(Payload(line)).None? ==> t == ""
    ensures IsDataLine(line) && decode(Payload(line)).Some? ==>
      if decode(Payload(line)).value.choices == [] then t == ""
      else IsFirstNonEmpty([decode(Payload(line)).value.choices[0].content,
                            decode(Payload(line)).value.choices[0].text], t)
  {
    if !IsDataLine(line) then ""
    else match decode(Payload(line))
      case None => ""
      case Some(ev) => if ev.choices == [] then "" else DeltaText(ev.choices[0])
  }

  /** The relay's state: what the caller has been sent, and the assistant
      text accumulated so far. */
  datatype Relay = Relay(echoed: string, assistant: string)

  /** The read loop from state `st`: echo the line with a newline, stop after
      echoing the sentinel, otherwise add the line's contribution and go on.
      The loop only ever appends to what was sent and to the accumulator,
      and sends something for every line it reads. */
  function RelayFrom(lines: seq<string>, decode: EventDecoder, st: Relay): (r: Relay)
    ensures st.echoed <= r.echoed && st.assistant <= r.assistant
    ensures lines != [] ==> |r.echoed| > |st.echoed|
    decreases |lines|
  {
    if lines == [] then st
    else
      var line := lines[0];
      var sent := st.(echoed := st.echoed + (line + "\n"));
      if IsSentinel(line) then sent
      else RelayFrom(lines[1..], decode, sent.(assistant := sent.assistant + Contribution(line, decode)))
  }

  /** The whole loop, from nothing sent and an empty accumulator: the caller
      receives every line read, each newline-terminated, and the accumulator
      holds the contributions of the lines before the sentinel. */
  function RelayLines(lines: seq<string>, decode: EventDecoder): (r: Relay)
    ensures r.echoed == Echo(ReadLines(lines))
    ensures r.assistant == Accumulate(lines[..Cutoff(lines)], decode)
  {
    RelayFromSpec(lines, decode, Relay("", ""));
    RelayFrom(lines, decode, Relay("", ""))
  }

  /** The position of the first sentinel, or the number of lines when there
      is none. */
  function Cutoff(lines: seq<string>): (k: nat)
    ensures k <= |lines|
    ensures forall i :: 0 <= i < k ==> !IsSentinel(lines[i])
    ensures k < |lines| ==> IsSentinel(lines[k])
  {
    if lines == [] then 0
    else if IsSentinel(lines[0]) then 0
    else 1 + Cutoff(lines[1..])
  }

  /** The lines the relay reads: everything up to and including the first
      sentinel. */
  function ReadLines(lines: seq<string>): seq<string>
  {
    if Cutoff(lines) < |lines| then lines[..Cutoff(lines) + 1] else lines
  }

  /** Each line followed by a newline, concatenated. */
  function Echo(lines: seq<string>): string
  {
    if lines == [] then "" else lines[0] + "\n" + Echo(lines[1..])
  }

  /** The contributions of the lines, concatenated. */
  function Accumulate(lines: seq<string>, decode: EventDecoder): string
  {
    if lines == [] then "" else Contribution(lines[0], decode) + Accumulate(lines[1..], decode)
  }

  /** Past a line that is not the sentinel, the cutoff is one further. */
  lemma CutoffStep(lines: seq<string>)
    requires lines != [] && !IsSentinel(lines[0])
    ensures Cutoff(lines) == 1 + Cutoff(lines[1..])
    ensures lines[..Cutoff(lines)] == [lines[0]] + lines[1..][..Cutoff(lines[1..])]
  {
    TakeCons(lines, Cutoff(lines[1..]));
  }

  /** Past a line that is not the sentinel, the lines read are that line
      followed by the lines read from the rest. */
  lemma ReadLinesStep(lines: seq<string>)
    requires lines != [] && !IsSentinel(lines[0])
    ensures Cutoff(lines) == 1 + Cutoff(lines[1..])
    ensures ReadLines(lines) == [lines[0]] + ReadLines(lines[1..])
    ensures lines[..Cutoff(lines)] == [lines[0]] + lines[1..][..Cutoff(lines[1..])]
  {
    CutoffStep(lines);
    var rest := lines[1..];
    var c := Cutoff(rest);
    if c < |rest| {
      TakeCons(lines, c + 1);
    } else {
      assert lines == [lines[0]] + rest;
    }
  }

  /** Echo of a sequence headed by `line`. */
  lemma EchoCons(line: string, ls: seq<string>)
    ensures Echo([line] + ls) == line + "\n" + Echo(ls)
  {
    assert ([line] + ls)[1..] == ls;
  }

  /** Accumulate over a sequence headed by `line`. */
  lemma AccumulateCons(line: string, ls: seq<string>, decode: EventDecoder)
    ensures Accumulate([line] + ls, decode) == Contribution(line, decode) + Accumulate(ls, decode)
  {
    assert ([line] + ls)[1..] == ls;
  }

  /** The fold from any state appends the echo of the lines read and the
      contributions of the lines before the sentinel. */
  lemma {:induction false} RelayFromSpec(lines: seq<string>, decode: EventDecoder, st: Relay)
    ensures RelayFrom(lines, decode, st) ==
      Relay(st.echoed + Echo(ReadLines(lines)),
            st.assistant + Accumulate(lines[..Cutoff(lines)], decode))
    decreases |lines|
  {
    if lines == [] {
      assert lines[..0] == [];
    } else {
      var line := lines[0];
      var rest := lines[1..];
      if IsSentinel(line) {
        assert ReadLines(lines) == [line] + [];
        EchoCons(line, []);
        assert lines[..0] == [];
      } else {
        var sent := st.(echoed := st.echoed + (line + "\n"));
        var next := sent.(assistant := sent.assistant + Contribution(line, decode));
        RelayFromSpec(rest, decode, next);
        ReadLinesStep(lines);
        EchoCons(line, ReadLines(rest));
        AccumulateCons(line, rest[..Cutoff(rest)], decode);
        Associative(st.echoed, line + "\n", Echo(ReadLines(rest)));
        Associative(st.assistant, Contribution(line, decode), Accumulate(rest[..Cutoff(rest)], decode));
      }
    }
  }

  /** Nothing after the sentinel is echoed or inspected: appending lines
      behind it changes neither output nor accumulator. */
  lemma {:induction false} NothingAfterSentinel(lines: seq<string>, more: seq<string>, decode: EventDecoder, st: Relay)
    requires Cutoff(lines) < |lines|
    ensures RelayFrom(lines + more, decode, st) == RelayFrom(lines, decode, st)
    decreases |lines|
  {
    var line := lines[0];
    assert (lines + more)[0] == line;
    if !IsSentinel(line) {
      assert (lines + more)[1..] == lines[1..] + more;
      var sent := st.(echoed := st.echoed + (line + "\n"));
      NothingAfterSentinel(lines[1..], more, decode, sent.(assistant := sent.assistant + Contribution(line, decode)));
    }
  }

  /** The first position of a newline, or the length when there is none. */
  function NewlineIndex(s: string): (i: nat)
    ensures i <= |s|
    ensures i < |s| ==> s[i] == '\n'
    ensures forall j :: 0 <= j < i ==> s[j] != '\n'
  {
    if s == [] then 0
    else if s[0] == '\n' then 0
    else 1 + NewlineIndex(s[1..])
  }

  /** A token without its trailing carriage return. */
  function DropCR(s: string): string
  {
    if |s| > 0 && s[|s| - 1] == '\r' then s[..|s| - 1] else s
  }

  /** The body contains no carriage return. */
  predicate NoCR(body: string)
  {
    forall j :: 0 <= j < |body| ==> body[j] != '\r'
  }

  /** The line scanner over the upstream body: tokens end at each newline,
      lose one trailing carriage return, and a final unterminated token is a
      line of its own. */
  function Lines(body: string): (ls: seq<string>)
    ensures ls == [] <==> body == []
    ensures forall i, j :: 0 <= i < |ls| && 0 <= j < |ls[i]| ==> ls[i][j] != '\n'
    decreases |body|
  {
    if body == [] then []
    else
      var i := NewlineIndex(body);
      if i == |body| then
        assert forall j :: 0 <= j < |DropCR(body)| ==> DropCR(body)[j] == body[j];
        [DropCR(body)]
      else
        var line := DropCR(body[..i]);
        assert forall j :: 0 <= j < |line| ==> line[j] == body[j];
        var rest := Lines(body[i + 1..]);
        var ls := [line] + rest;
        assert forall k :: 0 < k < |ls| ==> ls[k] == rest[k - 1];
        ls
  }

  /** Without carriage returns, the scanner splits at the first newline and
      keeps the token unchanged. */
  lemma LinesStep(body: string)
    requires body != []
    requires NoCR(body)
    ensures NewlineIndex(body) == |body| ==> Lines(body) == [body]
    ensures NewlineIndex(body) < |body| ==>
      Lines(body) == [body[..NewlineIndex(body)]] + Lines(body[NewlineIndex(body) + 1..])
  {
    var i := NewlineIndex(body);
    if i < |body| && i > 0 {
      assert body[..i][i - 1] == body[i - 1];
    }
  }

  /** Prefixing a line and its newline commutes with terminating the last
      line: `head + "\n" + rest` ends in a newline exactly when `rest` is
      empty or does. */
  lemma TerminateAfterLine(head: string, rest: string)
    ensures head + "\n" + Terminated(rest) == Terminated(head + "\n" + rest)
  {
    var body := head + "\n" + rest;
    if rest != [] {
      assert body[|body| - 1] == rest[|rest| - 1];
      assert head + "\n" + (rest + "\n") == body + "\n";
    }
  }

  /** The body with a newline added after an unterminated last line. */
  function Terminated(body: string): string
  {
    if body == [] || body[|body| - 1] == '\n' then body else body + "\n"
  }

  /** A suffix of a body without carriage returns has none either. */
  lemma NoCRSuffix(body: string, k: nat)
    requires NoCR(body) && k <= |body|
    ensures NoCR(body[k..])
  {
    assert forall j :: 0 <= j < |body| - k ==> body[k..][j] == body[k + j];
  }

  /** A body with no newline is one line, echoed with a newline added. */
  lemma EchoOfLastLine(body: string)
    requires body != [] && NewlineIndex(body) == |body|
    requires NoCR(body)
    ensures body[|body| - 1] != '\n'
    ensures Echo(Lines(body)) == body + "\n"
  {
    LinesStep(body);
    EchoCons(body, []);
    assert body + "\n" + "" == body + "\n";
  }

  /** Echoing a body with a newline is its first line, that newline, and the
      echo of the rest. */
  lemma EchoOfFirstLine(body: string)
    requires NewlineIndex(body) < |body|
    requires NoCR(body)
    ensures var i := NewlineIndex(body);
      && body == body[..i] + "\n" + body[i + 1..]
      && Echo(Lines(body)) == body[..i] + "\n" + Echo(Lines(body[i + 1..]))
  {
    var i := NewlineIndex(body);
    LinesStep(body);
    EchoCons(body[..i], Lines(body[i + 1..]));
    SplitAt(body, i);
  }

  /** Echoing the scanned lines of a body without carriage returns gives the
      body back byte for byte, plus one newline when its last line was
      unterminated. */
  lemma {:induction false} EchoOfLines(body: string)
    requires NoCR(body)
    ensures Echo(Lines(body)) == Terminated(body)
    decreases |body|
  {
    if body != [] {
      var i := NewlineIndex(body);
      if i == |body| {
        EchoOfLastLine(body);
      } else {
        NoCRSuffix(body, i + 1);
        EchoOfLines(body[i + 1..]);
        EchoOfFirstLine(body);
        TerminateAfterLine(body[..i], body[i + 1..]);
      }
    }
  }
}

=== FILE: wrappers.dfy ===
/** Failure-carrying results shared by the stores and the handler. */
module Wrappers {

  /** A value that may be absent: a decoder that rejects its input, a nullable column. */
  datatype Option<+T> = None | Some(value: T)

  /** The outcome of a call that either produces a value or reports an error. */
  datatype Result<+R, +E> = Ok(value: R) | Err(error: E)
}
